=== FILE: README.md ===
# Parts order and inventory engine, modelled in Dafny

This project models the order and inventory engine of a parts-ordering
application (`logic.py`). The engine keeps a stock ledger split into named
stock pools, a cart per user, order headers and order line items. Each
public operation runs as one database unit of work that commits or rolls
back as a whole. Here each one is a pure function from a `State` to a
`Tx` result: `Committed(state, value)` or `RolledBack(message)`.

Modules, one per concern of the engine:

- `Common` (common.dfy): `Option`, `Min`, an order-preserving `Filter`.
- `Text` (text.dfy): Python's `str.strip()` over Latin-1 whitespace and
  the part-number normalisation (remove every `-`, then strip).
- `Allocation` (allocation.dfy): the allocation table with its four
  status labels, as the bulk enquiry and the cart view use it.
- `Ledger` (ledger.dfy): the stock ledger as a list of records, lookup,
  the quantity adjustment behind deduction and restoration, and the
  catalog soft replace and hard wipe.
- `Cart` (cart.dfy): the cart upsert and the clearing of a user's cart.
- `Store` (store.dfy): the state, order headers, line items, the unit of
  work result and sums over line items.
- `OrderEntry` (order_entry.dfy): `create_order`.
- `Lifecycle` (lifecycle.dfy): stock restoration, status change, order
  deletion and the two history wipes.
- `Catalog` (catalog.dfy): `upload_parts_stock` and `reset_stock` as
  units of work.
- `Bulk` (bulk.dfy): the bulk enquiry's normalisation, duplicate merge,
  lookup against active records and allocation.

Modelling decisions:

- The stock ledger is a sequence of records, not a map keyed by
  (pool, part). The order path's lookup takes the first record of the
  part in the pool, active or not, because its query has no `is_active`
  filter. Deduction and restoration adjust every record of that part in
  the pool. Non-negativity of every record is proved under the
  assumption of one record per (pool, part). Any re-upload of a pool that
  already lists the part breaks that assumption, because the old record
  stays as inactive history. An order can then drive the live record
  below zero with no concurrent order involved. This is the second row
  under "## Findings". Conservation is proved for the quantity the order
  path reads, with no such assumption.
- A new order's status is `"Pending"`. In the source it comes from a
  column default that is not shown; the insert does not set it.
- A database error inside a unit of work is the parameter `fault`.
  With a fault the result is `RolledBack` and the state is as before.
  `create_order` also rolls back when the next order id is already in
  use, as the header insert would then fail.
- Prices are exact reals; the allocated value is `qty × price`.
- `restore_stock_from_order` has no transaction of its own. It is
  modelled as a function on the state, used inside the status change and
  the deletion.
- `upload_parts_stock` and `reset_stock` raise on a database error
  instead of returning `(False, message)`. The model gives them the same
  `Tx` result as the other operations.

Behaviours of `logic.py` that are easy to miss, and that the model keeps:

- The lookup, deduction and restoration of the order path read and
  write inactive records too: none of their queries filters on
  `is_active`.
- Any status string is stored, and a rejected order that is set to
  another status and rejected again is restored a second time
  (`Lifecycle.RejectAcceptRejectRestoresTwice`). There is no table of
  allowed transitions.
- A negative stock value with a larger request makes the order path
  record a negative allocated quantity, while the allocation table says
  0 (`Allocation.OrderAllocationAgreesWithTable`). Nothing deducts in
  that case. With a request no larger than the negative stock the two
  agree: the table gives "Fully Allocated" with the request.
- `create_order` deletes all of the user's cart rows, not only the rows
  of the order.

## Model

| member | source | states |
|---|---|---|
| Allocation.Allocate | logic.py:354-366 | "Invalid Part" exactly when there is no record; "Fully Allocated" exactly when available >= requested, allocating the request; "Partial Fulfillment" exactly when 0 < available < requested, allocating what is available; "Out of Stock" otherwise; "Out of Stock" and "Invalid Part" allocate 0 |
| Allocation.LabelsDistinct | logic.py:354-366 | the four status labels are distinct, so the stored label tells which row of the table applied |
| Allocation.AllocationIsCappedMinimum | logic.py:354-366 | with a record and available >= 0 the allocation is min(requested, available), between 0 and the request when the request is non-negative; a partial allocation is strictly between 0 and the request; no record allocates 0 |
| Allocation.OrderAllocationAgreesWithTable | logic.py:255 | the order path's min(requested, stock) equals the table's allocation when stock >= 0; with negative stock and a larger request it is negative where the table gives 0 |
| Allocation.CartAllocation | logic.py:184-196 | the cart view's inline table is the allocation table with the record taken as present and a missing join read as 0; it never says "Invalid Part" |
| Text.Strip | logic.py:132 | the result is the slice of the input between its leading and trailing whitespace, does not start or end with whitespace, and everything cut off is whitespace |
| Text.StrippedUnique | logic.py:132 | at most one string fits that description, so it fixes the result of `strip()` |
| Text.StripIdempotent | logic.py:132 | stripping twice equals stripping once |
| Text.RemoveHyphens | logic.py:329 | the result has no `-` and holds every other character of the input as often as the input does |
| Text.RemoveHyphensConcat | logic.py:329 | hyphens are removed piecewise, so the kept characters stay in input order |
| Text.RemoveHyphensOfClean | logic.py:329 | a string without `-` is unchanged |
| Text.RemoveHyphensKeepsChars | logic.py:329 | removing hyphens introduces no character |
| Text.NormalizePartNumber | logic.py:329 | the result is the stripped form of the input with every `-` removed: no `-`, no surrounding whitespace, only characters of the input |
| Text.NormalizeIdempotent | logic.py:329 | normalising twice equals normalising once |
| Ledger.FindRecord | logic.py:246-249 | a record found matches the pool and the part, and is active when only active records are asked for |
| Ledger.FindRecordFirst | logic.py:246-249 | the first record of the key in table order is the one found |
| Ledger.LookupFirst | logic.py:246-251 | the order path reads the quantity of the first record of the key, active or not, and 0 when the key has no record |
| Ledger.LiveAvailableUnique | logic.py:338 | with one active record per key, the active-only reading is that record's quantity |
| Ledger.AdjustLive | logic.py:258-262 | the deduction restricted to active records: matching active records move by the delta, every other record is unchanged |
| Ledger.ReplaceKeepsUniqueActiveKeys | logic.py:43-55 | an upload naming each part once keeps one active record per key, whatever history the pool has |
| Ledger.FindRecordSpec | logic.py:246-249 | the record found is in the ledger, matches pool and part (and is active when asked), and nothing is found exactly when no record qualifies |
| Ledger.Adjust | logic.py:258-262 | every record of the part in the pool, active or not, has its quantity moved by exactly the delta; every record keeps its part, pool, description, price and active flag; records of other parts or pools are unchanged |
| Ledger.AdjustMovesItsKey | logic.py:258-262 | the lookup of the adjusted key moves by the delta, and finds nothing when it found nothing before |
| Ledger.AdjustKeepsOtherKey | logic.py:258-262 | the lookup of every other key is unchanged |
| Ledger.AdjustAvailable | logic.py:258-262 | the quantity read for the adjusted key moves by exactly the delta when a record exists and stays 0 otherwise; every other key reads as before |
| Ledger.AdjustInverse | logic.py:420-426 | subtracting an amount from a part and adding it back gives the ledger back record for record |
| Ledger.AdjustCommute | logic.py:420-426 | adjustments of the ledger commute |
| Ledger.LookupUnique | logic.py:246-249 | with one record per key, the lookup of a record's key returns that record's quantity |
| Ledger.ReplacePool | logic.py:43-55 | the ledger grows by the upload; earlier records differ at most in the active flag, records of other pools are unchanged, and no earlier record of the pool stays active |
| Ledger.ReplaceInstallsCatalog | logic.py:43-55 | after the replace the pool's active records are exactly the uploaded rows, stripped, in upload order |
| Ledger.ReplaceKeepsOtherCatalogs | logic.py:43-55 | the active records of every other pool are unchanged |
| Ledger.WipePool | logic.py:57-64 | a record is in the result exactly when it was in the ledger and is of another pool, and each such record occurs as often as before |
| Ledger.WipeKeepsOtherPools | logic.py:57-64 | every lookup in another pool answers as before the wipe |
| Ledger.WipeIdempotent | logic.py:57-64 | wiping twice equals wiping once |
| Ledger.WipeAfterReplace | logic.py:43-64 | wiping after an upload equals wiping without it |
| Cart.Upsert | logic.py:136-163 | the (user, part) total grows by the added quantity, the row exists afterwards, the cart grows by one row exactly when there was none, and rows of other keys are unchanged |
| Cart.AddToCart | logic.py:130-163 | the (user, stripped part) total grows by the added quantity, the row exists afterwards, the cart grows by one row exactly when there was none, and rows of other keys are unchanged |
| Cart.UpsertKeepsOtherTotals | logic.py:136-163 | every other (user, part) total is unchanged |
| Cart.UpsertKeepsRowsUnique | logic.py:136-163 | a cart with one row per (user, part) keeps that property |
| Cart.SameKeysKeepUnique | logic.py:142-148 | changing rows without changing their (user, part) keys keeps the keys unique |
| Cart.AppendNewKeyKeepsUnique | logic.py:149-163 | appending a row whose key is new keeps the keys unique |
| Cart.UpsertChangesOneRow | logic.py:142-148 | with a matching row, only the first matching row changes, and only its quantity |
| Cart.UpsertAppends | logic.py:149-163 | without a matching row the new row is appended |
| Cart.ClearCart | logic.py:294 | a row is in the result exactly when it was in the cart and belongs to another user, and each such row occurs as often as before |
| Cart.ClearCartTotals | logic.py:294 | afterwards the user has 0 of every part in the cart and every other user's totals are as before |
| Store.ItemsOfAppended | logic.py:403-406 | the items read back for a fresh order id are exactly the items appended for it |
| OrderEntry.AllocateLine | logic.py:246-283 | the line item carries the line's part, description, request and price, the quantity the lookup reads as snapshot and min(request, snapshot) as allocation; the ledger keeps its shape and other pools are unchanged |
| OrderEntry.ProcessLines | logic.py:243-285 | the loop records one item per line; what the items hold, the total and the frame are stated by the three lemmas below |
| OrderEntry.AllocateLineMovesStock | logic.py:255-262 | the part's quantity drops by the allocation only when it is positive; every other part of the pool reads as before |
| OrderEntry.AllocateLineIsAdjust | logic.py:255-262 | the line's whole effect on the ledger is one adjustment of its part by the negated allocation, and none when the allocation is not positive |
| OrderEntry.ProcessLinesLast | logic.py:243-283 | the last line is processed on the stock the earlier lines left, and its item follows theirs |
| OrderEntry.ProcessLinesItems | logic.py:243-283 | one item per line in submission order, carrying the line's order id, part, description, request and price, each allocated min(requested, snapshot) |
| OrderEntry.ProcessLinesTotal | logic.py:243-285 | the running total is the sum of allocated × price over the items |
| OrderEntry.ProcessLinesIsolation | logic.py:243-262 | the ledger keeps its shape and other pools are unchanged |
| OrderEntry.CreateOrder | logic.py:228-298 | a fault or a taken order id rolls back with no change; otherwise the order gets the next id, status "Pending" and the items' allocated value as total, the items are appended, one per line in submission order with the line's fields, each snapshot being the part's initial stock less what the earlier lines took and each allocation `min(requested, snapshot)`, every part's quantity plus its deduction equals its quantity before, other pools are unchanged, and a cart row remains exactly when it belongs to another user, as often as before |
| OrderEntry.LinesConserveStock | logic.py:243-262 | for every part of the pool, the quantity left plus the quantity the lines deducted equals the quantity before |
| OrderEntry.ProcessLinesPrefix | logic.py:243-283 | the items of a prefix of the lines are the prefix of the items |
| OrderEntry.ProcessLinesStep | logic.py:243-283 | item i is the loop body applied to the stock the first i lines left |
| OrderEntry.ProcessLinesSnapshots | logic.py:243-281 | every line's snapshot at once: the initial quantity less what the earlier lines took of that part |
| OrderEntry.ProcessLinesRecordsLines | logic.py:243-283 | the loop's items are one per line with the line's fields, its snapshot and `min(requested, snapshot)` as allocation |
| OrderEntry.SnapshotSeesEarlierLines | logic.py:243-281 | each line's snapshot is the initial quantity minus what earlier lines of the same order took of that part |
| OrderEntry.OrderNeverOverAllocates | logic.py:243-262 | from a non-negative quantity, the quantity stays non-negative and the lines together never take more than it |
| OrderEntry.AllocateLineKeepsRecordsNonNegative | logic.py:255-262 | with one record per key, one line keeps every record non-negative |
| OrderEntry.OrderKeepsRecordsNonNegative | logic.py:243-262 | with one record per key, an order keeps every record non-negative and the keys unique |
| OrderEntry.ReuploadThenOrderGoesNegative | logic.py:243-262 | after re-uploading A at 2 over an active A at 10, the key has two records; an order for 10 reads the inactive 10, allocates 10, and leaves the live record at -8 |
| OrderEntry.AllocateLineLive | logic.py:243-262 | the corrected loop body: the item is built as before from the live record's quantity (0 without one); the part's active records drop by the positive allocation and every other record is unchanged |
| OrderEntry.ProcessLinesLive | logic.py:252-283 | the corrected loop, as evidently intended: one item per line, only quantities move, and the inactive history and other pools are unchanged |
| OrderEntry.AllocateLineLiveKeepsRecordsNonNegative | logic.py:255-262 | with one active record per key, the corrected body keeps every record non-negative and one active record per key |
| OrderEntry.OrderLiveKeepsRecordsNonNegative | logic.py:243-262 | with one active record per key, the corrected loop keeps every record non-negative |
| OrderEntry.ReuploadThenLiveOrderStaysNonNegative | logic.py:243-262 | on the re-upload scenario the corrected body allocates the live 2, leaves the live record at 0 and the history at 10 |
| Lifecycle.RestoreItems | logic.py:420-426 | the loop over the items keeps the ledger's length; what it credits is stated by the lemmas below |
| Lifecycle.RestoreItemsIsolation | logic.py:420-426 | the ledger keeps its shape and other pools are unchanged |
| Lifecycle.RestoreItemsLast | logic.py:420-426 | one more item is one more credit of its positive quantity, and nothing for a non-positive one |
| Lifecycle.RestoreCreditsDeducted | logic.py:420-426 | each part of the pool is credited exactly the positive allocations of its items, and a part without a record stays without one |
| Lifecycle.RestoreCommutesWithAdjust | logic.py:420-426 | restoring commutes with any other adjustment |
| Lifecycle.RestoreUndoesLines | logic.py:258-262 | restoring the items an order's lines produced gives back the ledger the lines started from |
| Lifecycle.RestoreUndoesDeduction | logic.py:420-426 | crediting back a deduction taken before the restoring loop gives the same ledger as the loop alone |
| Lifecycle.RestoreStock | logic.py:398-426 | without a header nothing changes; the ledger keeps its shape |
| Lifecycle.UpdateOrderStatus | logic.py:428-451 | rolls back on a fault; otherwise returns "Updated", restores exactly when the order exists, is not Rejected and becomes Rejected, stores the new status on an existing header, and leaves a missing order's state as it was |
| Lifecycle.DeleteOrder | logic.py:453-464 | rolls back on a fault; otherwise returns "Deleted", restores unconditionally, removes the header, and an item remains exactly when it belongs to another order, as often as before; cart and id counter are unchanged |
| Lifecycle.DeleteOrderGuarded | logic.py:453-464 | the same deletion (other orders' items kept, each as often as before), restoring only an existing order that is not already Rejected |
| Lifecycle.DeleteAllOrdersIdempotent | logic.py:484-494 | deleting a pool's orders a second time changes nothing: after the first call no header of the pool is left, so the subquery keeps every item |
| Lifecycle.DeleteAllOrders | logic.py:476-499 | rolls back on a fault; otherwise removes exactly the pool's headers, keeps an item exactly when its order id is not a header of the pool (items without a header stay), each kept item as often as before, and leaves stock, cart and id counter as they were |
| Lifecycle.DeleteAllUsersHistory | logic.py:466-474 | rolls back on a fault; otherwise removes every header and item and leaves stock, cart and id counter as they were |
| Lifecycle.CreateThenRestoreRoundTrip | logic.py:398-426 | restoring an order just created gives back the ledger from before the order |
| Lifecycle.CreateThenRejectConserves | logic.py:441-448 | creating then rejecting an order leaves the ledger as before the order |
| Lifecycle.GuardAfterUpdate | logic.py:442-449 | after a status change the restoring guard is open for a later rejection exactly when the order exists and the stored status is not "Rejected" (the guard `RestoresOnStatus` reads the stored status) |
| Lifecycle.RejectTwiceRestoresOnce | logic.py:441-448 | a second rejection changes nothing |
| Lifecycle.RejectAcceptRejectRestoresTwice | logic.py:441-448 | Rejected, Accepted, Rejected credits the order's allocation twice |
| Lifecycle.RejectThenDeleteCreditsTwice | logic.py:458-461 | deleting a rejected order credits its allocation a second time |
| Lifecycle.CreateRejectDeleteGainsStock | logic.py:458-461 | create, reject, delete leaves every part with its allocation added on top of its quantity before the order |
| Lifecycle.ExampleAllocation | logic.py:243-285 | 10 on hand and an order for 15 give one item allocated 10 and a total of 50 |
| Lifecycle.DoubleCreditExample | logic.py:458-461 | with 10 on hand, an order for 15, a rejection and a delete leave 0, then 10, then 20 |
| Lifecycle.CreateRejectDeleteGuardedConserves | logic.py:453-464 | with the guarded delete, create, reject, delete leaves the ledger as before the order |
| Lifecycle.CreateDeleteGuardedConserves | logic.py:453-464 | with the guarded delete, create then delete leaves the ledger as before the order |
| Catalog.UploadPartsStock | logic.py:43-55 | rolls back on a fault; otherwise earlier records change at most their active flag, no earlier record of the pool is active, other pools' records are unchanged, the upload is appended as active stripped records of the pool, and orders and cart are unchanged |
| Catalog.UploadInstallsCatalog | logic.py:43-55 | the pool's active catalog is the upload and every other pool's is unchanged |
| Catalog.UploadTwiceSameCatalog | logic.py:43-55 | uploading the same rows twice gives the same active catalogs as uploading once |
| Catalog.ResetStock | logic.py:57-64 | rolls back on a fault; otherwise a record remains exactly when it is of another pool, as often as before, and orders and cart are unchanged |
| Catalog.ResetClearsOnlyItsPool | logic.py:57-64 | nothing of the pool is found afterwards and lookups in other pools answer as before |
| Catalog.ResetAfterUpload | logic.py:43-64 | a reset after an upload leaves what the reset alone leaves |
| Bulk.NormalizeRows | logic.py:329 | every row's part number is normalised and has no `-`; quantities are unchanged |
| Bulk.MergeDuplicates | logic.py:333 | one entry per part number of the enquiry, holding the sum of that part's quantities |
| Bulk.PartsAreMentioned | logic.py:333 | a part is merged exactly when some row is for it |
| Bulk.QtyForConcat | logic.py:333 | the quantity of a part over two batches of rows is the sum over each |
| Bulk.QtyForPermutation | logic.py:333 | any reordering of the rows asks the same quantity of every part |
| Bulk.PartsPermutation | logic.py:333 | any reordering of the rows mentions the same parts |
| Bulk.QtyForOutside | logic.py:333 | a part no row is for has quantity 0 |
| Bulk.MergeIgnoresRowOrder | logic.py:333 | any two enquiries holding the same rows, in whatever order, merge to the same map |
| Bulk.MergeTwoRows | logic.py:333 | two rows for one part merge into one entry with the sum of their quantities |
| Bulk.SpellingsMerge | logic.py:329-333 | two spellings of one part that differ in hyphens and blanks merge into one entry with both quantities |
| Bulk.FirstActiveMatch | logic.py:338-349 | the first active record the merge meets is the one the active-only lookup finds, and there is none exactly when that lookup finds nothing |
| Bulk.LinesForPart | logic.py:349-370 | one answer per active record of the part, in table order and carrying that record, each from the allocation table on that record's quantity; or a single "Invalid Part" answer allocating 0 when there is none |
| Bulk.BulkEnquiry | logic.py:301-376 | one entry per normalised part, each answer requesting the merged quantity, "Invalid Part" exactly when the pool has no active record of the part, and each part's answers are exactly the left merge of `Bulk.LinesForPart` for the merged quantity |
| Bulk.BulkInvalidLabel | logic.py:357-359 | a part's answer carries the label "Invalid Part" exactly when the pool has no active record of it |
| Bulk.NormalizedPartsMentioned | logic.py:329 | every part of the normalised enquiry has no `-` and is the normal form of a raw row's part number |
| Bulk.BulkKeysNormalized | logic.py:329-333 | every part the enquiry answers has no `-` and is the normal form of some row's part number |
| Bulk.BulkNeverOverAllocates | logic.py:354-366 | an unknown part is allocated 0; with non-negative quantities an answer stays between 0 and the request and within the record's quantity |
| Bulk.ScenarioMerge | logic.py:329-333 | rows of 3 and 5 units of one part merge into one request for 8 |
| Bulk.ScenarioAnswer | logic.py:349-370 | a request for 8 against one active record of 6 gets one "Partial Fulfillment" answer allocating 6 |
| Bulk.MergedRequestAllocatedOnce | logic.py:329-370 | rows of 3 and 5 for one part against 6 on hand give one answer requesting 8 and allocating 6 |

## Left out

- The user interface (`main.py`): layout, session state, login and
  registration, downloads.
- Concurrency: each unit of work is atomic and the units run one after
  another. The race between two orders reading the same stock is a
  matter of database isolation.
- SQL and pandas plumbing: header and column mapping, CSV parsing and the
  price-string clean-up of the upload and the bulk enquiry. The model
  starts from parsed rows (`NewPart`, `EnquiryRow`).
- Missing columns and NULL values in uploads and enquiries (a NULL
  description or quantity), which the source turns into NaN.
- The per-user price adjustment with rounding to two decimals, both in
  the search and in the bulk enquiry: floating-point numerics.
- `get_parts_like` search and ranking, `get_part_by_number` and the other
  read-only getters.
- Cart row edits by row id (`remove_from_cart_db`, `update_cart_item_db`);
  cart rows have no id in the model. `clear_cart_db` is `Cart.ClearCart`.
- The cart view's join itself (`get_user_cart`): its fixed pool name and
  its ordering. Only its allocation table is modelled.
- User administration, `force_schema_cleanup`, and `get_stock_csv`, which
  does not parse as written.
- Bulk.BulkEnquiry: the answers are a map keyed by part number, so the
  sorted row order of the group-by result is not modelled.
- OrderEntry.CreateOrder: the id sequence is modelled as a counter that
  a rollback does not advance; a database sequence may skip ids.
- OrderEntry.CreateOrder: `fetchone` without `ORDER BY` is taken to return
  the first matching record in table order.
- Cart.Upsert: the cart lookup's `fetchone` without `ORDER BY` is likewise
  taken to return the first matching row in table order; with one row
  per (user, part), which the upsert maintains, there is only one.
- Text.Strip: whitespace is Python's whitespace in the Latin-1 range
  only.

## Findings

| source | as written | input that shows it | evidently intended | confidence | as-written member | corrected member |
|---|---|---|---|---|---|---|
| logic.py:458 | `delete_order` restores stock even when the order is already Rejected, so its stock was already credited back | pool with part A at 10; order A × 15 allocates 10 (A = 0); reject (A = 10); delete (A = 20) | restore on delete only when the order exists and is not already Rejected, like the status change | medium, not executed | Lifecycle.DeleteOrder (Lifecycle.RejectThenDeleteCreditsTwice, Lifecycle.DoubleCreditExample) | Lifecycle.DeleteOrderGuarded (Lifecycle.CreateRejectDeleteGuardedConserves) |
| logic.py:247 | the order path reads and deducts every record of the part in the pool, active or not, but a re-upload keeps the old records as inactive history (logic.py:45-55) | pool with part A at 10; upload A at 2 (records 10 inactive, 2 active); order A × 10. When the lookup's `fetchone` returns the history row, as the model's table-order reading does, the order reads 10, allocates 10, deducts 10 from both records and leaves the live record at -8. The row order is the assumption on the "OrderEntry.CreateOrder: `fetchone`" line under "## Left out". When it returns the live row, the order allocates 2, and the deduction still takes 2 from the history row as well | read and deduct only the part's active record, as the bulk enquiry (logic.py:338) and the cart view do | medium, not executed | OrderEntry.AllocateLine (OrderEntry.ReuploadThenOrderGoesNegative) | OrderEntry.AllocateLineLive (OrderEntry.ProcessLinesLive, OrderEntry.OrderLiveKeepsRecordsNonNegative, Ledger.ReplaceKeepsUniqueActiveKeys) |

The order entry and the deletion elsewhere in the model follow the code
as written (`OrderEntry.AllocateLine`, `Lifecycle.DeleteOrder`). Each
corrected member sits beside its as-written counterpart, and the
evidently intended property is proved about it.

=== FILE: allocation.dfy ===
/** The allocation table: how much of a requested quantity the available
    stock backs, and the status label shown next to it. The bulk enquiry
    (`calculate_allocation`) and the cart view use the same table; the
    cart view has no "Invalid Part" row because a missing stock record
    reaches it as an available quantity of 0. */
module Allocation {
  import opened Common

  datatype Status = FullyAllocated | PartialFulfillment | OutOfStock | InvalidPart

  /** The label the source stores in the `status` column. */
  function Label(s: Status): string {
    match s
    case FullyAllocated => "Fully Allocated"
    case PartialFulfillment => "Partial Fulfillment"
    case OutOfStock => "Out of Stock"
    case InvalidPart => "Invalid Part"
  }

  /** The four labels are distinct strings, so the stored label tells which
      row of the table applied. */
  lemma LabelsDistinct(a: Status, b: Status)
    ensures Label(a) == Label(b) <==> a == b
  {
  }

  datatype Allocation = Allocation(qty: int, status: Status)

  /** `calculate_allocation`: the allocation for `requested` units against
      `available` units, given whether the part has a stock record. */
  function Allocate(requested: int, available: int, recordExists: bool): (a: Allocation)
    ensures a.status == InvalidPart <==> !recordExists
    ensures a.status == FullyAllocated <==> recordExists && available >= requested
    ensures a.status == PartialFulfillment <==> recordExists && 0 < available < requested
    ensures a.status == OutOfStock <==> recordExists && available <= 0 && available < requested
    ensures a.status == FullyAllocated ==> a.qty == requested
    ensures a.status == PartialFulfillment ==> a.qty == available
    ensures a.status == OutOfStock || a.status == InvalidPart ==> a.qty == 0
    ensures a.status == FullyAllocated || a.status == PartialFulfillment ==>
      a.qty <= requested && a.qty <= available
  {
    if !recordExists then Allocation(0, InvalidPart)
    else if available >= requested then Allocation(requested, FullyAllocated)
    else if available > 0 then Allocation(available, PartialFulfillment)
    else Allocation(0, OutOfStock)
  }

  /** Against a non-negative available quantity the table allocates exactly
      `min(requested, available)`; for a non-negative request that is
      between 0 and the request. A missing record allocates nothing. */
  lemma AllocationIsCappedMinimum(requested: int, available: int, recordExists: bool)
    ensures !recordExists ==> Allocate(requested, available, recordExists).qty == 0
    ensures recordExists && available >= 0 ==>
      Allocate(requested, available, recordExists).qty == Min(requested, available)
    ensures recordExists && available >= 0 && requested >= 0 ==>
      0 <= Allocate(requested, available, recordExists).qty <= requested
    ensures Allocate(requested, available, recordExists).status == PartialFulfillment ==>
      0 < Allocate(requested, available, recordExists).qty < requested
  {
  }

  /** The order path allocates `min(requested, stock)` without the table.
      The two agree whenever the stock is non-negative; on a negative stock
      value with a larger request the order path records a negative
      allocation where the table says 0. */
  lemma OrderAllocationAgreesWithTable(requested: int, stock: int)
    ensures stock >= 0 ==> Min(requested, stock) == Allocate(requested, stock, true).qty
    ensures stock < 0 && requested > stock ==>
      Min(requested, stock) == stock < 0 == Allocate(requested, stock, true).qty
  {
  }

  /** The cart view's inline copy of the table (`get_user_cart`): `joined`
      is the stock column of the LEFT JOIN, `None` when no active record
      matched, and `available_qty or 0` turns that into 0. */
  function CartAllocation(requested: int, joined: Option<int>): (a: Allocation)
    ensures a == Allocate(requested, if joined.Some? then joined.value else 0, true)
    ensures a.status != InvalidPart
  {
    var available := if joined.Some? then joined.value else 0;
    if available >= requested then Allocation(requested, FullyAllocated)
    else if available > 0 then Allocation(available, PartialFulfillment)
    else Allocation(0, OutOfStock)
  }
}

=== FILE: bulk.dfy ===
/** The bulk enquiry (`process_bulk_enquiry`): normalise the part numbers
    of an uploaded enquiry, merge duplicate parts by summing their
    quantities, look every part up among the active records of the pool
    and run the allocation table on it. Nothing is written. */
module Bulk {
  import opened Common
  import opened Text
  import opened Allocation
  import opened Ledger

  /** An enquiry row after column mapping: part number and quantity. */
  datatype EnquiryRow = EnquiryRow(part: string, qty: int)

  /** The part-number clean-up of the enquiry: hyphens removed, then blanks
      trimmed, quantities untouched. */
  function NormalizeRows(rows: seq<EnquiryRow>): (r: seq<EnquiryRow>)
    ensures |r| == |rows|
    ensures forall i :: 0 <= i < |r| ==>
      r[i].part == NormalizePartNumber(rows[i].part) && r[i].qty == rows[i].qty
    ensures forall i :: 0 <= i < |r| ==> '-' !in r[i].part
  {
    seq(|rows|, i requires 0 <= i < |rows| => rows[i].(part := NormalizePartNumber(rows[i].part)))
  }

  /** Whether some row of the enquiry is for part `p`. */
  predicate Mentions(rows: seq<EnquiryRow>, p: string) {
    exists i :: 0 <= i < |rows| && rows[i].part == p
  }

  /** The part numbers of the enquiry. */
  function Parts(rows: seq<EnquiryRow>): set<string>
    decreases |rows|
  {
    if |rows| == 0 then {}
    else Parts(rows[..|rows| - 1]) + {rows[|rows| - 1].part}
  }

  /** Total quantity the enquiry asks for part `p`, over all its rows. */
  function QtyFor(rows: seq<EnquiryRow>, p: string): int
    decreases |rows|
  {
    if |rows| == 0 then 0
    else
      var last := rows[|rows| - 1];
      QtyFor(rows[..|rows| - 1], p) + (if last.part == p then last.qty else 0)
  }

  /** The group-by-and-sum of the enquiry: one entry per part number,
      holding the summed quantity. */
  function MergeDuplicates(rows: seq<EnquiryRow>): (m: map<string, int>)
    ensures m.Keys == Parts(rows)
    ensures forall p :: p in m ==> m[p] == QtyFor(rows, p)
    decreases |rows|
  {
    if |rows| == 0 then map[]
    else
      var prefix := rows[..|rows| - 1];
      var prev := MergeDuplicates(prefix);
      var last := rows[|rows| - 1];
      QtyForOutside(prefix, last.part);
      prev[last.part := (if last.part in prev then prev[last.part] else 0) + last.qty]
  }

  /** The merged parts are exactly the parts some row mentions. */
  lemma {:induction false} PartsAreMentioned(rows: seq<EnquiryRow>, p: string)
    ensures p in Parts(rows) <==> Mentions(rows, p)
    decreases |rows|
  {
    if |rows| > 0 {
      var n := |rows|;
      var prefix := rows[..n - 1];
      PartsAreMentioned(prefix, p);
      if Mentions(prefix, p) {
        var i :| 0 <= i < |prefix| && prefix[i].part == p;
        assert rows[i] == prefix[i];
      }
      if Mentions(rows, p) && rows[n - 1].part != p {
        var i :| 0 <= i < n && rows[i].part == p;
        assert prefix[i] == rows[i];
      }
    }
  }

  /** A part outside the enquiry is asked for in quantity 0. */
  lemma {:induction false} QtyForOutside(rows: seq<EnquiryRow>, p: string)
    ensures p !in Parts(rows) ==> QtyFor(rows, p) == 0
    decreases |rows|
  {
    if |rows| > 0 {
      QtyForOutside(rows[..|rows| - 1], p);
    }
  }

  /** The quantity asked for a part adds up over a split of the enquiry. */
  lemma {:induction false} QtyForConcat(a: seq<EnquiryRow>, b: seq<EnquiryRow>, p: string)
    ensures QtyFor(a + b, p) == QtyFor(a, p) + QtyFor(b, p)
    decreases |b|
  {
    if |b| == 0 {
      assert a + b == a;
    } else {
      assert (a + b)[..|a + b| - 1] == a + b[..|b| - 1];
      QtyForConcat(a, b[..|b| - 1], p);
    }
  }

  /** Taking the same row out of two equal bags of rows leaves equal bags. */
  lemma CancelOne(x: multiset<EnquiryRow>, y: multiset<EnquiryRow>, e: EnquiryRow)
    requires x + multiset{e} == y + multiset{e}
    ensures x == y
  {
    assert forall v :: x[v] == (x + multiset{e})[v] - multiset{e}[v];
    assert forall v :: y[v] == (y + multiset{e})[v] - multiset{e}[v];
  }

  /** Reordering the enquiry's rows does not change the quantity asked
      for any part. */
  lemma {:induction false} QtyForPermutation(a: seq<EnquiryRow>, b: seq<EnquiryRow>, p: string)
    requires multiset(a) == multiset(b)
    ensures QtyFor(a, p) == QtyFor(b, p)
    decreases |a|
  {
    if |a| == 0 {
      assert |b| == |multiset(b)| == 0;
    } else {
      var n := |a|;
      var last := a[n - 1];
      assert a == a[..n - 1] + [last];
      assert multiset(b)[last] > 0;
      var j :| 0 <= j < |b| && b[j] == last;
      var rest := b[..j] + b[j + 1..];
      assert b == b[..j] + [last] + b[j + 1..];
      assert multiset(b) == multiset(b[..j]) + multiset{last} + multiset(b[j + 1..]);
      assert multiset(rest) == multiset(b[..j]) + multiset(b[j + 1..]);
      assert multiset(a) == multiset(a[..n - 1]) + multiset{last};
      CancelOne(multiset(a[..n - 1]), multiset(rest), last);
      QtyForPermutation(a[..n - 1], rest, p);
      QtyForConcat(b[..j], [last], p);
      QtyForConcat(b[..j] + [last], b[j + 1..], p);
      QtyForConcat(b[..j], b[j + 1..], p);
      assert [last][..0] == [];
    }
  }

  /** Reordering the enquiry's rows does not change which parts it
      mentions. */
  lemma PartsPermutation(a: seq<EnquiryRow>, b: seq<EnquiryRow>)
    requires multiset(a) == multiset(b)
    ensures Parts(a) == Parts(b)
  {
    forall p
      ensures p in Parts(a) <==> p in Parts(b)
    {
      PartsAreMentioned(a, p);
      PartsAreMentioned(b, p);
      if Mentions(a, p) {
        var i :| 0 <= i < |a| && a[i].part == p;
        assert multiset(b)[a[i]] > 0;
      }
      if Mentions(b, p) {
        var i :| 0 <= i < |b| && b[i].part == p;
        assert multiset(a)[b[i]] > 0;
      }
    }
  }

  /** The merge does not depend on the order of the enquiry's rows: any
      reordering gives the same parts with the same totals. */
  lemma MergeIgnoresRowOrder(a: seq<EnquiryRow>, b: seq<EnquiryRow>)
    requires multiset(a) == multiset(b)
    ensures MergeDuplicates(a) == MergeDuplicates(b)
  {
    var m1 := MergeDuplicates(a);
    var m2 := MergeDuplicates(b);
    PartsPermutation(a, b);
    forall p | p in m1
      ensures m1[p] == m2[p]
    {
      QtyForPermutation(a, b, p);
    }
  }

  /** Two rows for one part merge into one entry with both quantities. */
  lemma MergeTwoRows(k: string, x: int, y: int)
    ensures MergeDuplicates([EnquiryRow(k, x), EnquiryRow(k, y)]) == map[k := x + y]
  {
    var rows := [EnquiryRow(k, x), EnquiryRow(k, y)];
    assert rows[..1] == [EnquiryRow(k, x)];
    assert rows[..1][..0] == [];
  }

  /** Two spellings of one part, differing only in hyphens and surrounding
      blanks, merge into a single entry carrying both quantities. */
  lemma SpellingsMerge(a: string, b: string, x: int, y: int)
    requires NormalizePartNumber(a) == NormalizePartNumber(b)
    ensures MergeDuplicates(NormalizeRows([EnquiryRow(a, x), EnquiryRow(b, y)])) ==
      map[NormalizePartNumber(a) := x + y]
  {
    var k := NormalizePartNumber(a);
    var raw := [EnquiryRow(a, x), EnquiryRow(b, y)];
    var rows := NormalizeRows(raw);
    assert rows[0] == EnquiryRow(k, x) && rows[1] == EnquiryRow(k, y);
    assert rows == [EnquiryRow(k, x), EnquiryRow(k, y)] by { assert |rows| == 2; }
    MergeTwoRows(k, x, y);
  }

  /** The answer for one enquiry line: the stock record it was matched
      with (none for an unknown part), the available quantity read from it,
      and the table's allocation. */
  datatype BulkLine = BulkLine(
    part: string,
    requested: int,
    record: Option<StockRecord>,
    available: int,
    allocation: Allocation)

  function ActiveMatch(pool: string, part: string): StockRecord -> bool {
    (r: StockRecord) => r.active && Matches(r, pool, part)
  }

  /** The left merge of one merged enquiry line with the pool's active
      records: one answer per matching record, in table order, or a single
      "Invalid Part" answer when there is none. */
  function LinesForPart(stock: Stock, pool: string, part: string, qty: int): (r: seq<BulkLine>)
    ensures |r| >= 1
    ensures forall i :: 0 <= i < |r| ==> r[i].part == part && r[i].requested == qty
    ensures forall i :: 0 <= i < |r| ==>
      r[i].allocation == Allocate(qty, r[i].available, r[i].record.Some?)
    ensures forall i :: 0 <= i < |r| && r[i].record.Some? ==>
      var rec := r[i].record.value;
      rec in stock && rec.active && Matches(rec, pool, part) && r[i].available == rec.freeStock
    ensures FindRecord(stock, pool, part, true).None? <==> r[0].allocation.status == InvalidPart
    ensures FindRecord(stock, pool, part, true).Some? ==>
      r[0].record == FindRecord(stock, pool, part, true)
    ensures FindRecord(stock, pool, part, true).None? ==> |r| == 1 && r[0].allocation.qty == 0
    ensures var recs := Filter(stock, ActiveMatch(pool, part));
      |recs| > 0 ==> |r| == |recs| && forall i :: 0 <= i < |r| ==> r[i].record == Some(recs[i])
  {
    var recs := Filter(stock, ActiveMatch(pool, part));
    FirstActiveMatch(stock, pool, part);
    if |recs| == 0 then [BulkLine(part, qty, None, 0, Allocate(qty, 0, false))]
    else
      assert forall i :: 0 <= i < |recs| ==> recs[i] in recs;
      AnswerEach(part, qty, recs)
  }

  /** One answer per matched record, in the order the records are given. */
  function AnswerEach(part: string, qty: int, recs: Stock): (r: seq<BulkLine>)
    ensures |r| == |recs|
    ensures forall i :: 0 <= i < |r| ==>
      r[i] == BulkLine(part, qty, Some(recs[i]), recs[i].freeStock, Allocate(qty, recs[i].freeStock, true))
  {
    seq(|recs|, i requires 0 <= i < |recs| =>
      BulkLine(part, qty, Some(recs[i]), recs[i].freeStock, Allocate(qty, recs[i].freeStock, true)))
  }

  /** The first active record of a part that the merge meets is the one the
      active-only lookup finds. */
  lemma {:induction false} FirstActiveMatch(stock: Stock, pool: string, part: string)
    ensures var recs := Filter(stock, ActiveMatch(pool, part));
      && (|recs| == 0 <==> FindRecord(stock, pool, part, true).None?)
      && (|recs| > 0 ==> FindRecord(stock, pool, part, true) == Some(recs[0]))
    decreases |stock|
  {
    if |stock| > 0 {
      FirstActiveMatch(stock[1..], pool, part);
    }
  }

  /** `process_bulk_enquiry` without the price adjustment: the merged
      enquiry, each part answered against the pool's active records. */
  function BulkEnquiry(rows: seq<EnquiryRow>, stock: Stock, pool: string): (r: map<string, seq<BulkLine>>)
    ensures r.Keys == Parts(NormalizeRows(rows))
    ensures forall p :: p in r ==> |r[p]| >= 1 && forall i :: 0 <= i < |r[p]| ==>
      r[p][i].part == p && r[p][i].requested == QtyFor(NormalizeRows(rows), p)
    ensures forall p :: p in r ==>
      (r[p][0].allocation.status == InvalidPart <==> FindRecord(stock, pool, p, true).None?)
    ensures forall p :: p in r ==> r[p] == LinesForPart(stock, pool, p, QtyFor(NormalizeRows(rows), p))
  {
    var m := MergeDuplicates(NormalizeRows(rows));
    var r := map p | p in m :: LinesForPart(stock, pool, p, m[p]);
    assert r.Keys == m.Keys;
    assert forall p :: p in r ==> r[p] == LinesForPart(stock, pool, p, m[p]);
    r
  }

  /** The status column of a part's answer reads "Invalid Part" exactly when
      the pool has no active record of the part. */
  lemma BulkInvalidLabel(rows: seq<EnquiryRow>, stock: Stock, pool: string, p: string)
    ensures var r := BulkEnquiry(rows, stock, pool);
      p in r ==> (Label(r[p][0].allocation.status) == "Invalid Part" <==> FindRecord(stock, pool, p, true).None?)
  {
    var r: map<string, seq<BulkLine>> := BulkEnquiry(rows, stock, pool);
    if p in r {
      LabelsDistinct(r[p][0].allocation.status, InvalidPart);
    }
  }

  /** The enquiry is answered under normalised part numbers only. */
  lemma BulkKeysNormalized(rows: seq<EnquiryRow>, stock: Stock, pool: string, p: string)
    ensures p in BulkEnquiry(rows, stock, pool) ==>
      && '-' !in p
      && exists i :: 0 <= i < |rows| && NormalizePartNumber(rows[i].part) == p
  {
    NormalizedPartsMentioned(rows, p);
  }

  /** Every part of the normalised enquiry is the normal form of one of its
      raw rows, and has no hyphen. */
  lemma NormalizedPartsMentioned(rows: seq<EnquiryRow>, p: string)
    ensures p in Parts(NormalizeRows(rows)) ==>
      && '-' !in p
      && exists i :: 0 <= i < |rows| && NormalizePartNumber(rows[i].part) == p
  {
    var clean := NormalizeRows(rows);
    if p in Parts(clean) {
      PartsAreMentioned(clean, p);
      var i :| 0 <= i < |clean| && clean[i].part == p;
      assert NormalizePartNumber(rows[i].part) == p;
    }
  }

  /** Every answer of the bulk enquiry stays within what was asked and what
      its record holds, for non-negative quantities; an unknown part gets
      nothing. */
  lemma BulkNeverOverAllocates(rows: seq<EnquiryRow>, stock: Stock, pool: string, p: string, i: int)
    ensures var r := BulkEnquiry(rows, stock, pool);
      p in r && 0 <= i < |r[p]| ==>
      var line := r[p][i];
      && (line.record.None? ==> line.allocation.qty == 0)
      && (line.record.Some? && line.available >= 0 && line.requested >= 0 ==>
            0 <= line.allocation.qty <= line.requested && line.allocation.qty <= line.available)
  {
    var r: map<string, seq<BulkLine>> := BulkEnquiry(rows, stock, pool);
    if p in r && 0 <= i < |r[p]| {
      var line: BulkLine := r[p][i];
      AllocationIsCappedMinimum(line.requested, line.available, line.record.Some?);
    }
  }

  /** A part number without hyphens or blanks is its own normal form. */
  lemma NormalizeA()
    ensures NormalizePartNumber("A") == "A"
  {
    assert !IsSpace('A');
    FilterKeepsAll("A", NotHyphen);
    StripOfStripped("A");
  }

  /** The record of the scenario below: 6 units of part "A". */
  const ScenarioRecord: StockRecord := StockRecord("A", "Part A", 6, 5.0, "parts_stock", true)

  /** Rows of 3 and 5 units of "A" merge into one request for 8. */
  lemma ScenarioMerge()
    ensures MergeDuplicates(NormalizeRows([EnquiryRow("A", 3), EnquiryRow("A", 5)])) == map["A" := 8]
  {
    NormalizeA();
    SpellingsMerge("A", "A", 3, 5);
  }

  /** A request for 8 against the one record of 6 is partly allocated. */
  lemma ScenarioAnswer()
    ensures LinesForPart([ScenarioRecord], "parts_stock", "A", 8) ==
      [BulkLine("A", 8, Some(ScenarioRecord), 6, Allocation(6, PartialFulfillment))]
  {
    assert Filter([ScenarioRecord], ActiveMatch("parts_stock", "A")) == [ScenarioRecord];
  }

  /** Two rows for the same part, 3 and 5 units, against 6 units on hand:
      one merged request for 8, allocated 6 once. */
  lemma MergedRequestAllocatedOnce()
    ensures BulkEnquiry([EnquiryRow("A", 3), EnquiryRow("A", 5)], [ScenarioRecord], "parts_stock") ==
      map["A" := [BulkLine("A", 8, Some(ScenarioRecord), 6, Allocation(6, PartialFulfillment))]]
  {
    ScenarioMerge();
    ScenarioAnswer();
  }
}

=== FILE: cart.dfy ===
/** The cart staging table: one row per (user, part) line a user has put in
    the cart, before the order is placed. */
module Cart {
  import opened Common
  import opened Text

  type UserId = int

  datatype CartRow = CartRow(user: UserId, part: string, description: string, qty: int, price: real)

  predicate RowOf(row: CartRow, user: UserId, part: string) {
    row.user == user && row.part == part
  }

  predicate HasRow(cart: seq<CartRow>, user: UserId, part: string) {
    exists i :: 0 <= i < |cart| && RowOf(cart[i], user, part)
  }

  /** Total quantity a user has in the cart for a part, over all its rows. */
  function CartQty(cart: seq<CartRow>, user: UserId, part: string): int
    decreases |cart|
  {
    if |cart| == 0 then 0
    else (if RowOf(cart[0], user, part) then cart[0].qty else 0) + CartQty(cart[1..], user, part)
  }

  /** At most one row per (user, part): what the upsert maintains. */
  predicate UniqueRows(cart: seq<CartRow>) {
    forall i, j :: 0 <= i < |cart| && 0 <= j < |cart| && i != j ==>
      !RowOf(cart[j], cart[i].user, cart[i].part)
  }

  /** The upsert of `add_to_cart_db` on an already stripped row: the first
      row of the same user and part gets its quantity increased (its
      description and price stay), otherwise the row is appended. */
  function Upsert(cart: seq<CartRow>, row: CartRow): (r: seq<CartRow>)
    ensures CartQty(r, row.user, row.part) == CartQty(cart, row.user, row.part) + row.qty
    ensures HasRow(r, row.user, row.part)
    ensures |r| == |cart| + (if HasRow(cart, row.user, row.part) then 0 else 1)
    ensures forall i :: 0 <= i < |cart| && !RowOf(cart[i], row.user, row.part) ==> r[i] == cart[i]
    decreases |cart|
  {
    if |cart| == 0 then [row]
    else if RowOf(cart[0], row.user, row.part) then
      assert RowOf(cart[0], row.user, row.part);
      [cart[0].(qty := cart[0].qty + row.qty)] + cart[1..]
    else
      var rest := Upsert(cart[1..], row);
      assert HasRow(cart, row.user, row.part) == HasRow(cart[1..], row.user, row.part) by {
        if HasRow(cart, row.user, row.part) {
          var i :| 0 <= i < |cart| && RowOf(cart[i], row.user, row.part);
          assert RowOf(cart[1..][i - 1], row.user, row.part);
        }
        if HasRow(cart[1..], row.user, row.part) {
          var i :| 0 <= i < |cart[1..]| && RowOf(cart[1..][i], row.user, row.part);
          assert RowOf(cart[i + 1], row.user, row.part);
        }
      }
      var r := [cart[0]] + rest;
      assert r[1..] == rest;
      assert HasRow(r, row.user, row.part) by {
        var i :| 0 <= i < |rest| && RowOf(rest[i], row.user, row.part);
        assert RowOf(r[i + 1], row.user, row.part);
      }
      r
  }

  /** `add_to_cart_db`: the part number is stripped, then upserted. */
  function AddToCart(cart: seq<CartRow>, user: UserId, part: string, description: string, qty: int, price: real): (r: seq<CartRow>)
    ensures CartQty(r, user, Strip(part)) == CartQty(cart, user, Strip(part)) + qty
    ensures HasRow(r, user, Strip(part))
    ensures |r| == |cart| + (if HasRow(cart, user, Strip(part)) then 0 else 1)
    ensures forall i :: 0 <= i < |cart| && !RowOf(cart[i], user, Strip(part)) ==> r[i] == cart[i]
  {
    Upsert(cart, CartRow(user, Strip(part), description, qty, price))
  }

  /** The upsert leaves every other (user, part) total alone. */
  lemma {:induction false} UpsertKeepsOtherTotals(cart: seq<CartRow>, row: CartRow, user: UserId, part: string)
    requires !(user == row.user && part == row.part)
    ensures CartQty(Upsert(cart, row), user, part) == CartQty(cart, user, part)
    decreases |cart|
  {
    if |cart| > 0 && !RowOf(cart[0], row.user, row.part) {
      UpsertKeepsOtherTotals(cart[1..], row, user, part);
      assert Upsert(cart, row)[1..] == Upsert(cart[1..], row);
    } else if |cart| > 0 {
      assert Upsert(cart, row)[1..] == cart[1..];
    }
  }

  /** A cart with one row per (user, part) keeps that property under the
      upsert. */
  lemma UpsertKeepsRowsUnique(cart: seq<CartRow>, row: CartRow)
    requires UniqueRows(cart)
    ensures UniqueRows(Upsert(cart, row))
  {
    if k :| 0 <= k < |cart| && RowOf(cart[k], row.user, row.part) {
      forall j | 0 <= j < k
        ensures !RowOf(cart[j], row.user, row.part)
      {
        assert !RowOf(cart[j], cart[k].user, cart[k].part);
      }
      UpsertChangesOneRow(cart, row, k);
      SameKeysKeepUnique(cart, Upsert(cart, row));
    } else {
      UpsertAppends(cart, row);
      AppendNewKeyKeepsUnique(cart, row);
    }
  }

  /** Changing rows without changing their (user, part) keys keeps the keys
      unique. */
  lemma SameKeysKeepUnique(cart: seq<CartRow>, r: seq<CartRow>)
    requires UniqueRows(cart) && |r| == |cart|
    requires forall i :: 0 <= i < |r| ==> r[i].user == cart[i].user && r[i].part == cart[i].part
    ensures UniqueRows(r)
  {
    forall i, j | 0 <= i < |r| && 0 <= j < |r| && i != j
      ensures !RowOf(r[j], r[i].user, r[i].part)
    {
      assert !RowOf(cart[j], cart[i].user, cart[i].part);
    }
  }

  /** Appending a row whose key is not yet in the cart keeps the keys
      unique. */
  lemma AppendNewKeyKeepsUnique(cart: seq<CartRow>, row: CartRow)
    requires UniqueRows(cart) && !HasRow(cart, row.user, row.part)
    ensures UniqueRows(cart + [row])
  {
    var r := cart + [row];
    forall i, j | 0 <= i < |r| && 0 <= j < |r| && i != j
      ensures !RowOf(r[j], r[i].user, r[i].part)
    {
      if i < |cart| && j < |cart| {
        assert !RowOf(cart[j], cart[i].user, cart[i].part);
      } else if i < |cart| {
        assert !RowOf(cart[i], row.user, row.part);
      } else {
        assert !RowOf(cart[j], row.user, row.part);
      }
    }
  }

  /** With the first matching row at `k`, the upsert changes only that
      row's quantity. */
  lemma {:induction false} UpsertChangesOneRow(cart: seq<CartRow>, row: CartRow, k: int)
    requires 0 <= k < |cart| && RowOf(cart[k], row.user, row.part)
    requires forall j :: 0 <= j < k ==> !RowOf(cart[j], row.user, row.part)
    ensures |Upsert(cart, row)| == |cart|
    ensures Upsert(cart, row)[k] == cart[k].(qty := cart[k].qty + row.qty)
    ensures forall i :: 0 <= i < |cart| && i != k ==> Upsert(cart, row)[i] == cart[i]
    decreases |cart|
  {
    if k > 0 {
      assert !RowOf(cart[0], row.user, row.part);
      UpsertChangesOneRow(cart[1..], row, k - 1);
    }
  }

  /** Without a matching row the upsert appends. */
  lemma {:induction false} UpsertAppends(cart: seq<CartRow>, row: CartRow)
    requires !HasRow(cart, row.user, row.part)
    ensures Upsert(cart, row) == cart + [row]
    decreases |cart|
  {
    if |cart| > 0 {
      assert !RowOf(cart[0], row.user, row.part);
      UpsertAppends(cart[1..], row);
      assert [cart[0]] + (cart[1..] + [row]) == cart + [row];
    }
  }

  function NotOwnedBy(user: UserId): CartRow -> bool {
    (row: CartRow) => row.user != user
  }

  /** `DELETE FROM cart WHERE user_id = user`. */
  function ClearCart(cart: seq<CartRow>, user: UserId): (r: seq<CartRow>)
    ensures forall row :: row in r <==> row in cart && row.user != user
    ensures forall row :: multiset(r)[row] == if row.user != user then multiset(cart)[row] else 0
  {
    FilterCounts(cart, NotOwnedBy(user));
    Filter(cart, NotOwnedBy(user))
  }

  /** After clearing, the user has nothing of any part in the cart, and
      every other user's totals are as before. */
  lemma {:induction false} ClearCartTotals(cart: seq<CartRow>, user: UserId, u: UserId, part: string)
    ensures CartQty(ClearCart(cart, user), u, part) == if u == user then 0 else CartQty(cart, u, part)
    decreases |cart|
  {
    if |cart| > 0 {
      var rest := ClearCart(cart[1..], user);
      ClearCartTotals(cart[1..], user, u, part);
      assert CartQty(cart, u, part) ==
        (if RowOf(cart[0], u, part) then cart[0].qty else 0) + CartQty(cart[1..], u, part);
      if cart[0].user != user {
        var r := [cart[0]] + rest;
        assert ClearCart(cart, user) == r;
        assert r[0] == cart[0] && r[1..] == rest;
        assert CartQty(r, u, part) == (if RowOf(cart[0], u, part) then cart[0].qty else 0) + CartQty(rest, u, part);
      } else {
        assert ClearCart(cart, user) == [] + rest;
        assert [] + rest == rest;
      }
    }
  }
}

=== FILE: catalog.dfy ===
/** The two catalog operations on the stock ledger, as units of work:
    `upload_parts_stock` (soft replace of one pool's catalog) and
    `reset_stock` (hard delete of one pool). Orders, items and the cart are
    not touched by either. */
module Catalog {
  import opened Common
  import opened Text
  import opened Ledger
  import opened Store

  /** `upload_parts_stock`: every record of the pool becomes inactive, then
      the uploaded rows are appended as active records of the pool with
      their part numbers stripped. A database error undoes both steps. */
  function UploadPartsStock(s: State, pool: string, parts: seq<NewPart>, fault: Option<string>): (r: Tx<()>)
    ensures r.Committed? <==> fault.None?
    ensures fault.Some? ==> r.message == fault.value
    ensures r.Committed? ==>
      && r.state.orders == s.orders && r.state.items == s.items
      && r.state.cart == s.cart && r.state.nextOrderId == s.nextOrderId
    ensures r.Committed? ==> |r.state.stock| == |s.stock| + |parts|
    ensures r.Committed? ==> forall i :: 0 <= i < |s.stock| ==>
      r.state.stock[i].(active := false) == s.stock[i].(active := false)
    ensures r.Committed? ==> forall i :: 0 <= i < |s.stock| ==>
      !(r.state.stock[i].pool == pool && r.state.stock[i].active)
    ensures r.Committed? ==> forall i :: 0 <= i < |s.stock| && s.stock[i].pool != pool ==>
      r.state.stock[i] == s.stock[i]
    ensures r.Committed? ==> forall i :: 0 <= i < |parts| ==>
      var rec := r.state.stock[|s.stock| + i];
      && rec.active && rec.pool == pool
      && rec.part == Strip(parts[i].part) && rec.freeStock == parts[i].freeStock
      && rec.description == parts[i].description && rec.price == parts[i].price
    ensures Valid(s) && r.Committed? ==> Valid(r.state)
  {
    if fault.Some? then RolledBack(fault.value)
    else
      var stock := ReplacePool(s.stock, pool, parts);
      assert stock[|s.stock|..] == NewRecords(parts, pool);
      Committed(s.(stock := stock), ())
  }

  /** After an upload the active catalog of the pool is exactly the upload,
      in upload order, and every other pool's active catalog is as it was. */
  lemma UploadInstallsCatalog(s: State, pool: string, parts: seq<NewPart>)
    ensures var r := UploadPartsStock(s, pool, parts, None);
      && r.Committed?
      && ActiveRecords(r.state.stock, pool) == NewRecords(parts, pool)
      && forall q :: q != pool ==> ActiveRecords(r.state.stock, q) == ActiveRecords(s.stock, q)
  {
    var stock := UploadPartsStock(s, pool, parts, None).state.stock;
    ReplaceInstallsCatalog(s.stock, pool, parts);
    forall q | q != pool
      ensures ActiveRecords(stock, q) == ActiveRecords(s.stock, q)
    {
      ReplaceKeepsOtherCatalogs(s.stock, pool, parts, q);
    }
  }

  /** Uploading the same file twice leaves the same active catalog as
      uploading it once. */
  lemma UploadTwiceSameCatalog(s: State, pool: string, parts: seq<NewPart>)
    ensures var once := UploadPartsStock(s, pool, parts, None).state;
      var twice := UploadPartsStock(once, pool, parts, None).state;
      forall q :: ActiveRecords(twice.stock, q) == ActiveRecords(once.stock, q)
  {
    var once := UploadPartsStock(s, pool, parts, None).state;
    UploadInstallsCatalog(s, pool, parts);
    UploadInstallsCatalog(once, pool, parts);
  }

  /** `reset_stock`: every record of the pool is deleted, active or not. */
  function ResetStock(s: State, pool: string, fault: Option<string>): (r: Tx<()>)
    ensures r.Committed? <==> fault.None?
    ensures fault.Some? ==> r.message == fault.value
    ensures r.Committed? ==>
      && r.state.orders == s.orders && r.state.items == s.items
      && r.state.cart == s.cart && r.state.nextOrderId == s.nextOrderId
    ensures r.Committed? ==> forall x :: x in r.state.stock <==> x in s.stock && x.pool != pool
    ensures r.Committed? ==> forall x ::
      multiset(r.state.stock)[x] == if x.pool != pool then multiset(s.stock)[x] else 0
    ensures Valid(s) && r.Committed? ==> Valid(r.state)
  {
    if fault.Some? then RolledBack(fault.value)
    else Committed(s.(stock := WipePool(s.stock, pool)), ())
  }

  /** A reset finds nothing of the pool afterwards, and every lookup in
      another pool answers as before. */
  lemma ResetClearsOnlyItsPool(s: State, pool: string, q: string, part: string, activeOnly: bool)
    ensures var stock := ResetStock(s, pool, None).state.stock;
      && FindRecord(stock, pool, part, activeOnly).None?
      && (q != pool ==> FindRecord(stock, q, part, activeOnly) == FindRecord(s.stock, q, part, activeOnly))
  {
    var stock := ResetStock(s, pool, None).state.stock;
    FindRecordSpec(stock, pool, part, activeOnly);
    if q != pool {
      WipeKeepsOtherPools(s.stock, pool, q, part, activeOnly);
    }
  }

  /** Resetting after an upload leaves what resetting alone leaves: the
      upload's records and the deactivated ones all go. */
  lemma ResetAfterUpload(s: State, pool: string, parts: seq<NewPart>)
    ensures var u := UploadPartsStock(s, pool, parts, None).state;
      ResetStock(u, pool, None).state == ResetStock(s, pool, None).state
  {
    WipeAfterReplace(s.stock, pool, parts);
  }
}

=== FILE: common.dfy ===
/** Generic helpers shared by the engine's modules: an optional value, the
    integer minimum and an order-preserving filter over sequences. */
module Common {

  datatype Option<T> = None | Some(value: T)

  /** Python's `min(a, b)` on integers. */
  function Min(a: int, b: int): (m: int)
    ensures m <= a && m <= b
    ensures m == a || m == b
  {
    if b < a then b else a
  }

  /** The elements of `s` that satisfy `keep`, in their original order
      (a SQL `DELETE ... WHERE NOT keep` seen from the rows that survive). */
  function Filter<T(!new)>(s: seq<T>, keep: T -> bool): (r: seq<T>)
    ensures |r| <= |s|
    ensures forall x :: x in r <==> x in s && keep(x)
    decreases |s|
  {
    if |s| == 0 then []
    else (if keep(s[0]) then [s[0]] else []) + Filter(s[1..], keep)
  }

  /** The filter keeps every element `keep` accepts as often as it occurs,
      and nothing else: it only ever deletes. */
  lemma {:induction false} FilterCounts<T(!new)>(s: seq<T>, keep: T -> bool)
    ensures forall x :: multiset(Filter(s, keep))[x] == if keep(x) then multiset(s)[x] else 0
    decreases |s|
  {
    if |s| > 0 {
      FilterCounts(s[1..], keep);
      assert s == [s[0]] + s[1..];
    }
  }

  lemma {:induction false} FilterConcat<T(!new)>(a: seq<T>, b: seq<T>, keep: T -> bool)
    ensures Filter(a + b, keep) == Filter(a, keep) + Filter(b, keep)
    decreases |a|
  {
    if |a| == 0 {
      assert a + b == b;
    } else {
      assert (a + b)[1..] == a[1..] + b;
      FilterConcat(a[1..], b, keep);
    }
  }

  lemma {:induction false} FilterKeepsAll<T(!new)>(s: seq<T>, keep: T -> bool)
    requires forall i :: 0 <= i < |s| ==> keep(s[i])
    ensures Filter(s, keep) == s
    decreases |s|
  {
    if |s| > 0 {
      FilterKeepsAll(s[1..], keep);
    }
  }

  lemma {:induction false} FilterDropsAll<T(!new)>(s: seq<T>, keep: T -> bool)
    requires forall i :: 0 <= i < |s| ==> !keep(s[i])
    ensures Filter(s, keep) == []
    decreases |s|
  {
    if |s| > 0 {
      FilterDropsAll(s[1..], keep);
    }
  }

  /** Two sequences of equal length that agree on which positions are kept,
      and agree on the kept elements themselves, filter to the same result. */
  lemma {:induction false} FilterCongruent<T(!new)>(a: seq<T>, b: seq<T>, keep: T -> bool)
    requires |a| == |b|
    requires forall i :: 0 <= i < |a| ==> keep(a[i]) == keep(b[i])
    requires forall i :: 0 <= i < |a| && keep(a[i]) ==> a[i] == b[i]
    ensures Filter(a, keep) == Filter(b, keep)
    decreases |a|
  {
    if |a| > 0 {
      FilterCongruent(a[1..], b[1..], keep);
    }
  }
}

=== FILE: ledger.dfy ===
/** The stock ledger: the `parts_stock` table as a list of records in table
    order. A record is identified by its part number and its stock pool
    (`stock_type`); re-uploading a pool keeps the old records as inactive
    history, so one (pool, part) key may have several records. */
module Ledger {
  import opened Common
  import opened Text

  datatype StockRecord = StockRecord(
    part: string,
    description: string,
    freeStock: int,
    price: real,
    pool: string,
    active: bool)

  type Stock = seq<StockRecord>

  predicate Matches(r: StockRecord, pool: string, part: string) {
    r.pool == pool && r.part == part
  }

  /** The first record of (pool, part) in table order, among all records or
      among the active ones only. A single-row SELECT without ORDER BY may
      return any matching row; the model fixes it to the first one. */
  function FindRecord(stock: Stock, pool: string, part: string, activeOnly: bool): (r: Option<StockRecord>)
    ensures r.Some? ==> Matches(r.value, pool, part) && (activeOnly ==> r.value.active)
    decreases |stock|
  {
    if |stock| == 0 then None
    else if Matches(stock[0], pool, part) && (!activeOnly || stock[0].active) then Some(stock[0])
    else FindRecord(stock[1..], pool, part, activeOnly)
  }

  /** The record found is one of the ledger's, and nothing is found exactly
      when no record qualifies. */
  lemma {:induction false} FindRecordSpec(stock: Stock, pool: string, part: string, activeOnly: bool)
    ensures var r := FindRecord(stock, pool, part, activeOnly);
      && (r.Some? ==> r.value in stock)
      && (r.None? <==>
            forall i :: 0 <= i < |stock| ==> !(Matches(stock[i], pool, part) && (activeOnly ==> stock[i].active)))
    decreases |stock|
  {
    if |stock| > 0 {
      FindRecordSpec(stock[1..], pool, part, activeOnly);
      assert forall i :: 1 <= i < |stock| ==> stock[i] == stock[1..][i - 1];
    }
  }

  /** The stock the order path reads (logic.py:247): no filter on the
      active flag. */
  function Lookup(stock: Stock, pool: string, part: string): Option<int> {
    match FindRecord(stock, pool, part, false)
    case Some(rec) => Some(rec.freeStock)
    case None => None
  }

  /** What the order path reads is the quantity of the first record of the
      key in table order, active or not, and 0 when the key has none. */
  lemma LookupFirst(stock: Stock, pool: string, part: string)
    ensures Lookup(stock, pool, part).None? <==>
      forall i :: 0 <= i < |stock| ==> !Matches(stock[i], pool, part)
    ensures Lookup(stock, pool, part).None? ==> Available(stock, pool, part) == 0
    ensures forall i ::
      (0 <= i < |stock| && Matches(stock[i], pool, part)
       && (forall j :: 0 <= j < i ==> !Matches(stock[j], pool, part))) ==>
      (Lookup(stock, pool, part) == Some(stock[i].freeStock)
       && Available(stock, pool, part) == stock[i].freeStock)
  {
    FindRecordSpec(stock, pool, part, false);
    forall i | 0 <= i < |stock| && Matches(stock[i], pool, part) &&
      (forall j :: 0 <= j < i ==> !Matches(stock[j], pool, part))
      ensures FindRecord(stock, pool, part, false) == Some(stock[i])
    {
      FindRecordFirst(stock, pool, part, i);
    }
  }

  /** The first record of the key is the one the lookup finds. */
  lemma {:induction false} FindRecordFirst(stock: Stock, pool: string, part: string, i: int)
    requires 0 <= i < |stock| && Matches(stock[i], pool, part)
    requires forall j :: 0 <= j < i ==> !Matches(stock[j], pool, part)
    ensures FindRecord(stock, pool, part, false) == Some(stock[i])
    decreases i
  {
    if i > 0 {
      FindRecordFirst(stock[1..], pool, part, i - 1);
    }
  }

  /** `row.free_stock if row else 0`. */
  function Available(stock: Stock, pool: string, part: string): int {
    match Lookup(stock, pool, part)
    case Some(v) => v
    case None => 0
  }

  /** A record with its quantity blanked out: what must stay fixed when only
      quantities move. */
  function Identity(r: StockRecord): StockRecord {
    r.(freeStock := 0)
  }

  /** `b` is `a` with at most the free-stock quantities changed. */
  predicate SameShape(a: Stock, b: Stock) {
    |a| == |b| && forall i :: 0 <= i < |a| ==> Identity(a[i]) == Identity(b[i])
  }

  /** Moving quantities never creates or removes a (pool, part) key. */
  lemma SameShapeSameKeys(a: Stock, b: Stock)
    requires SameShape(a, b)
    ensures forall pool, part :: Lookup(a, pool, part).Some? == Lookup(b, pool, part).Some?
  {
    forall pool, part
      ensures Lookup(a, pool, part).Some? == Lookup(b, pool, part).Some?
    {
      FindRecordSpec(a, pool, part, false);
      FindRecordSpec(b, pool, part, false);
      assert forall i :: 0 <= i < |a| ==> (Matches(a[i], pool, part) <==> Matches(b[i], pool, part)) by {
        forall i | 0 <= i < |a| ensures Matches(a[i], pool, part) <==> Matches(b[i], pool, part) {
          assert Identity(a[i]) == Identity(b[i]);
        }
      }
    }
  }

  /** `UPDATE parts_stock SET free_stock = free_stock + delta WHERE
      part_number = part AND stock_type = pool`: every matching record moves,
      active or not. Deduction is a negative `delta`. */
  function Adjust(stock: Stock, pool: string, part: string, delta: int): (r: Stock)
    ensures SameShape(stock, r)
    ensures forall i :: 0 <= i < |r| && Matches(stock[i], pool, part) ==>
      r[i].freeStock == stock[i].freeStock + delta
    ensures forall i :: 0 <= i < |r| && !Matches(stock[i], pool, part) ==> r[i] == stock[i]
  {
    seq(|stock|, i requires 0 <= i < |stock| =>
      if Matches(stock[i], pool, part) then stock[i].(freeStock := stock[i].freeStock + delta) else stock[i])
  }

  /** An adjustment moves the observed stock of its own key by `delta`
      when the key has a record. */
  lemma {:induction false} AdjustMovesItsKey(stock: Stock, pool: string, part: string, delta: int)
    ensures Lookup(Adjust(stock, pool, part, delta), pool, part) ==
      (match Lookup(stock, pool, part) case Some(v) => Some(v + delta) case None => None)
    decreases |stock|
  {
    if |stock| > 0 {
      assert Adjust(stock, pool, part, delta)[1..] == Adjust(stock[1..], pool, part, delta);
      AdjustMovesItsKey(stock[1..], pool, part, delta);
    }
  }

  /** An adjustment leaves every other key's observed stock alone. */
  lemma {:induction false} AdjustKeepsOtherKey(stock: Stock, pool: string, part: string, delta: int, p: string, q: string)
    requires !(p == pool && q == part)
    ensures Lookup(Adjust(stock, pool, part, delta), p, q) == Lookup(stock, p, q)
    decreases |stock|
  {
    if |stock| > 0 {
      assert Adjust(stock, pool, part, delta)[1..] == Adjust(stock[1..], pool, part, delta);
      AdjustKeepsOtherKey(stock[1..], pool, part, delta, p, q);
    }
  }

  /** The same, stated on `Available`. */
  lemma AdjustAvailable(stock: Stock, pool: string, part: string, delta: int)
    ensures Available(Adjust(stock, pool, part, delta), pool, part) ==
      Available(stock, pool, part) + (if Lookup(stock, pool, part).Some? then delta else 0)
    ensures forall p, q :: !(p == pool && q == part) ==>
      Available(Adjust(stock, pool, part, delta), p, q) == Available(stock, p, q)
  {
    AdjustMovesItsKey(stock, pool, part, delta);
    forall p, q | !(p == pool && q == part)
      ensures Available(Adjust(stock, pool, part, delta), p, q) == Available(stock, p, q)
    {
      AdjustKeepsOtherKey(stock, pool, part, delta, p, q);
    }
  }

  /** Restoring what was deducted gives back the ledger exactly. */
  lemma AdjustInverse(stock: Stock, pool: string, part: string, delta: int)
    ensures Adjust(Adjust(stock, pool, part, -delta), pool, part, delta) == stock
  {
  }

  /** Adjustments commute, so the order in which lines are restored does not
      matter. */
  lemma AdjustCommute(stock: Stock, pool1: string, part1: string, d1: int, pool2: string, part2: string, d2: int)
    ensures Adjust(Adjust(stock, pool1, part1, d1), pool2, part2, d2) ==
            Adjust(Adjust(stock, pool2, part2, d2), pool1, part1, d1)
  {
  }

  /** At most one record per (pool, part) key: the ledger before any
      re-upload, or after a wipe. */
  predicate UniqueKeys(stock: Stock) {
    forall i, j :: 0 <= i < |stock| && 0 <= j < |stock| && i != j ==>
      !Matches(stock[j], stock[i].pool, stock[i].part)
  }

  predicate NonNegative(stock: Stock) {
    forall i :: 0 <= i < |stock| ==> stock[i].freeStock >= 0
  }

  /** With unique keys the order path reads the key's only record. */
  lemma LookupUnique(stock: Stock, i: int)
    requires UniqueKeys(stock)
    requires 0 <= i < |stock|
    ensures Lookup(stock, stock[i].pool, stock[i].part) == Some(stock[i].freeStock)
  {
    var f := FindRecord(stock, stock[i].pool, stock[i].part, false);
    FindRecordSpec(stock, stock[i].pool, stock[i].part, false);
    assert !(Matches(stock[i], stock[i].pool, stock[i].part) ==> false);
    var j :| 0 <= j < |stock| && stock[j] == f.value;
    assert j == i;
  }

  // ---------- The live record of a key ----------

  /** At most one active record per (pool, part) key. Unlike `UniqueKeys`
      this survives a re-upload, which keeps the old records as inactive
      history (see `ReplaceKeepsUniqueActiveKeys`). */
  predicate UniqueActiveKeys(stock: Stock) {
    forall i, j :: 0 <= i < |stock| && 0 <= j < |stock| && i != j && stock[i].active && stock[j].active ==>
      !Matches(stock[j], stock[i].pool, stock[i].part)
  }

  /** The quantity of the key's active record, 0 when it has none. */
  function LiveAvailable(stock: Stock, pool: string, part: string): int {
    match FindRecord(stock, pool, part, true)
    case Some(rec) => rec.freeStock
    case None => 0
  }

  /** The deduction restricted to the key's active records; the inactive
      history keeps its quantities. */
  function AdjustLive(stock: Stock, pool: string, part: string, delta: int): (r: Stock)
    ensures SameShape(stock, r)
    ensures forall i :: 0 <= i < |r| && stock[i].active && Matches(stock[i], pool, part) ==>
      r[i].freeStock == stock[i].freeStock + delta
    ensures forall i :: 0 <= i < |r| && !(stock[i].active && Matches(stock[i], pool, part)) ==> r[i] == stock[i]
  {
    seq(|stock|, i requires 0 <= i < |stock| =>
      if stock[i].active && Matches(stock[i], pool, part)
      then stock[i].(freeStock := stock[i].freeStock + delta)
      else stock[i])
  }

  /** With one active record per key, the live reading of a key is that
      record's quantity. */
  lemma LiveAvailableUnique(stock: Stock, i: int)
    requires UniqueActiveKeys(stock)
    requires 0 <= i < |stock| && stock[i].active
    ensures LiveAvailable(stock, stock[i].pool, stock[i].part) == stock[i].freeStock
  {
    var f := FindRecord(stock, stock[i].pool, stock[i].part, true);
    FindRecordSpec(stock, stock[i].pool, stock[i].part, true);
    assert !(Matches(stock[i], stock[i].pool, stock[i].part) && stock[i].active ==> false);
    var j :| 0 <= j < |stock| && stock[j] == f.value;
    assert j == i;
  }

  // ---------- Catalog replace and wipe ----------

  /** A row of an uploaded catalog, after column mapping and price clean-up. */
  datatype NewPart = NewPart(part: string, description: string, freeStock: int, price: real)

  function ActiveIn(pool: string): StockRecord -> bool {
    (r: StockRecord) => r.active && r.pool == pool
  }

  function OutsidePool(pool: string): StockRecord -> bool {
    (r: StockRecord) => r.pool != pool
  }

  /** The live catalog of a pool: its active records in table order. */
  function ActiveRecords(stock: Stock, pool: string): Stock {
    Filter(stock, ActiveIn(pool))
  }

  /** The uploaded rows as active records of the pool, part numbers
      stripped (logic.py:36). */
  function NewRecords(parts: seq<NewPart>, pool: string): (r: Stock)
    ensures |r| == |parts|
    ensures forall i :: 0 <= i < |r| ==> r[i].active && r[i].pool == pool
  {
    seq(|parts|, i requires 0 <= i < |parts| =>
      StockRecord(Strip(parts[i].part), parts[i].description, parts[i].freeStock, parts[i].price, pool, true))
  }

  function Deactivate(stock: Stock, pool: string): Stock {
    seq(|stock|, i requires 0 <= i < |stock| =>
      if stock[i].pool == pool && stock[i].active then stock[i].(active := false) else stock[i])
  }

  /** `upload_parts_stock`: soft-delete the pool's active records, then
      append the new catalog as active records. Every earlier record is
      kept as history, only its active flag may change, and only in the
      replaced pool. */
  function ReplacePool(stock: Stock, pool: string, parts: seq<NewPart>): (r: Stock)
    ensures |r| == |stock| + |parts|
    ensures forall i :: 0 <= i < |stock| ==> r[i].(active := false) == stock[i].(active := false)
    ensures forall i :: 0 <= i < |stock| && stock[i].pool != pool ==> r[i] == stock[i]
    ensures forall i :: 0 <= i < |stock| ==> !(r[i].pool == pool && r[i].active)
  {
    Deactivate(stock, pool) + NewRecords(parts, pool)
  }

  /** After the replace, the live catalog of the pool is exactly the
      uploaded one, in upload order. */
  lemma ReplaceInstallsCatalog(stock: Stock, pool: string, parts: seq<NewPart>)
    ensures ActiveRecords(ReplacePool(stock, pool, parts), pool) == NewRecords(parts, pool)
  {
    var old_ := Deactivate(stock, pool);
    var new_ := NewRecords(parts, pool);
    FilterConcat(old_, new_, ActiveIn(pool));
    FilterDropsAll(old_, ActiveIn(pool));
    FilterKeepsAll(new_, ActiveIn(pool));
  }

  /** The live catalog of every other pool is untouched by the replace. */
  lemma ReplaceKeepsOtherCatalogs(stock: Stock, pool: string, parts: seq<NewPart>, q: string)
    requires q != pool
    ensures ActiveRecords(ReplacePool(stock, pool, parts), q) == ActiveRecords(stock, q)
  {
    var old_ := Deactivate(stock, pool);
    var new_ := NewRecords(parts, pool);
    FilterConcat(old_, new_, ActiveIn(q));
    FilterDropsAll(new_, ActiveIn(q));
    FilterCongruent(old_, stock, ActiveIn(q));
  }

  /** An upload whose rows name distinct parts (after stripping) keeps one
      active record per key: the pool's old records all become history. */
  lemma ReplaceKeepsUniqueActiveKeys(stock: Stock, pool: string, parts: seq<NewPart>)
    requires UniqueActiveKeys(stock)
    requires forall i, j :: 0 <= i < j < |parts| ==> Strip(parts[i].part) != Strip(parts[j].part)
    ensures UniqueActiveKeys(ReplacePool(stock, pool, parts))
  {
    var r := ReplacePool(stock, pool, parts);
    var n := |stock|;
    forall i, j | 0 <= i < |r| && 0 <= j < |r| && i != j && r[i].active && r[j].active
      ensures !Matches(r[j], r[i].pool, r[i].part)
    {
      if i < n && j < n {
        assert r[i] == stock[i] && r[j] == stock[j];
      } else if i >= n && j >= n {
        assert r[i].part == Strip(parts[i - n].part) && r[j].part == Strip(parts[j - n].part);
      }
    }
  }

  /** `reset_stock`: hard-delete every record of the pool. */
  function WipePool(stock: Stock, pool: string): (r: Stock)
    ensures forall x :: x in r <==> x in stock && x.pool != pool
    ensures forall x :: multiset(r)[x] == if x.pool != pool then multiset(stock)[x] else 0
  {
    FilterCounts(stock, OutsidePool(pool));
    Filter(stock, OutsidePool(pool))
  }

  /** A wipe does not disturb what the order path reads in other pools. */
  lemma {:induction false} WipeKeepsOtherPools(stock: Stock, pool: string, q: string, p: string, activeOnly: bool)
    requires q != pool
    ensures FindRecord(WipePool(stock, pool), q, p, activeOnly) == FindRecord(stock, q, p, activeOnly)
    decreases |stock|
  {
    if |stock| > 0 {
      WipeKeepsOtherPools(stock[1..], pool, q, p, activeOnly);
      var rest := WipePool(stock[1..], pool);
      if stock[0].pool != pool {
        assert WipePool(stock, pool) == [stock[0]] + rest;
        assert ([stock[0]] + rest)[1..] == rest;
      } else {
        assert WipePool(stock, pool) == rest;
      }
    }
  }

  /** Wiping twice is wiping once. */
  lemma WipeIdempotent(stock: Stock, pool: string)
    ensures WipePool(WipePool(stock, pool), pool) == WipePool(stock, pool)
  {
    var w := WipePool(stock, pool);
    assert forall i :: 0 <= i < |w| ==> w[i] in w;
    FilterKeepsAll(w, OutsidePool(pool));
  }

  /** An upload that is wiped leaves no trace: wiping after a replace is the
      same as wiping the original ledger. */
  lemma WipeAfterReplace(stock: Stock, pool: string, parts: seq<NewPart>)
    ensures WipePool(ReplacePool(stock, pool, parts), pool) == WipePool(stock, pool)
  {
    var old_ := Deactivate(stock, pool);
    var new_ := NewRecords(parts, pool);
    assert ReplacePool(stock, pool, parts) == old_ + new_;
    FilterConcat(old_, new_, OutsidePool(pool));
    FilterDropsAll(new_, OutsidePool(pool));
    FilterCongruent(old_, stock, OutsidePool(pool));
  }
}

=== FILE: lifecycle.dfy ===
/** The order lifecycle: crediting an order's allocation back to stock
    (`restore_stock_from_order`), status changes with the reject guard,
    deletion of one order, and the two bulk history wipes. */
module Lifecycle {
  import opened Common
  import opened Ledger
  import opened Cart
  import opened Store
  import opened OrderEntry

  /** The loop of `restore_stock_from_order` over the order's items, in
      table order: every positive allocated quantity goes back to the
      records of its part in the order's pool; other items are skipped. */
  function RestoreItems(stock: Stock, pool: string, items: seq<OrderItem>): (r: Stock)
    ensures |r| == |stock|
    decreases |items|
  {
    if |items| == 0 then stock
    else
      var prev := RestoreItems(stock, pool, items[..|items| - 1]);
      var it := items[|items| - 1];
      if it.qty > 0 then Adjust(prev, pool, it.part, it.qty) else prev
  }

  /** Restoration keeps the ledger's shape and leaves other pools alone. */
  lemma {:induction false} RestoreItemsIsolation(stock: Stock, pool: string, items: seq<OrderItem>)
    ensures var r := RestoreItems(stock, pool, items);
      && SameShape(stock, r)
      && forall i :: 0 <= i < |stock| && stock[i].pool != pool ==> r[i] == stock[i]
    decreases |items|
  {
    if |items| > 0 {
      RestoreItemsIsolation(stock, pool, items[..|items| - 1]);
    }
  }

  /** Restoration credits each part of the pool with exactly what the items
      deducted for it (a part without a record stays without one). */
  lemma {:induction false} RestoreCreditsDeducted(stock: Stock, pool: string, items: seq<OrderItem>)
    ensures forall p :: (Available(RestoreItems(stock, pool, items), pool, p) ==
      Available(stock, pool, p) + (if Lookup(stock, pool, p).Some? then Deducted(items, p) else 0))
    decreases |items|
  {
    if |items| > 0 {
      var prefix := items[..|items| - 1];
      var it := items[|items| - 1];
      RestoreCreditsDeducted(stock, pool, prefix);
      var prev := RestoreItems(stock, pool, prefix);
      RestoreItemsIsolation(stock, pool, prefix);
      SameShapeSameKeys(stock, prev);
      AdjustAvailable(prev, pool, it.part, it.qty);
    }
  }

  /** Restoring commutes with any other adjustment of the ledger. */
  lemma {:induction false} RestoreCommutesWithAdjust(stock: Stock, pool: string, items: seq<OrderItem>, pool2: string, part: string, d: int)
    ensures RestoreItems(Adjust(stock, pool2, part, d), pool, items) ==
            Adjust(RestoreItems(stock, pool, items), pool2, part, d)
    decreases |items|
  {
    if |items| > 0 {
      var prefix := items[..|items| - 1];
      var it := items[|items| - 1];
      RestoreCommutesWithAdjust(stock, pool, prefix, pool2, part, d);
      if it.qty > 0 {
        AdjustCommute(RestoreItems(stock, pool, prefix), pool2, part, d, pool, it.part, it.qty);
      }
    }
  }

  /** Round trip: restoring the items an order's lines produced gives back
      the ledger the lines started from, record for record. Deduction and
      restoration skip the same non-positive quantities. */
  lemma {:induction false} RestoreUndoesLines(stock: Stock, pool: string, oid: OrderId, lines: seq<Line>)
    ensures var f := ProcessLines(stock, pool, oid, lines);
      RestoreItems(f.stock, pool, f.items) == stock
    decreases |lines|
  {
    if |lines| > 0 {
      var prefix := lines[..|lines| - 1];
      var f := ProcessLines(stock, pool, oid, prefix);
      var step := AllocateLine(f.stock, pool, oid, lines[|lines| - 1]);
      var it := step.1;
      ProcessLinesLast(stock, pool, oid, lines);
      RestoreItemsLast(step.0, pool, f.items, it);
      RestoreUndoesLines(stock, pool, oid, prefix);
      AllocateLineIsAdjust(f.stock, pool, oid, lines[|lines| - 1]);
      if it.qty > 0 {
        RestoreUndoesDeduction(stock, f.stock, pool, f.items, it.part, it.qty);
      }
    }
  }

  /** One step of the round trip: if restoring `items` on `before` gives
      `stock`, then restoring them on `before` less `q` of a part and adding
      the `q` back also gives `stock`. */
  lemma RestoreUndoesDeduction(stock: Stock, before: Stock, pool: string, items: seq<OrderItem>, part: string, q: int)
    requires RestoreItems(before, pool, items) == stock
    ensures Adjust(RestoreItems(Adjust(before, pool, part, -q), pool, items), pool, part, q) == stock
  {
    RestoreCommutesWithAdjust(before, pool, items, pool, part, -q);
    AdjustInverse(stock, pool, part, q);
  }

  /** One more item is one more pass of the restoring loop. */
  lemma RestoreItemsLast(stock: Stock, pool: string, items: seq<OrderItem>, it: OrderItem)
    ensures RestoreItems(stock, pool, items + [it]) ==
      if it.qty > 0 then Adjust(RestoreItems(stock, pool, items), pool, it.part, it.qty)
      else RestoreItems(stock, pool, items)
  {
    assert (items + [it])[..|items|] == items;
  }

  /** `restore_stock_from_order`: the items are read by order id, the pool
      from the header; without a header nothing is credited. */
  function RestoreStock(s: State, oid: OrderId): (r: Stock)
    ensures oid !in s.orders ==> r == s.stock
    ensures SameShape(s.stock, r)
  {
    if oid !in s.orders then s.stock
    else
      RestoreItemsIsolation(s.stock, s.orders[oid].pool, ItemsOf(s.items, oid));
      RestoreItems(s.stock, s.orders[oid].pool, ItemsOf(s.items, oid))
  }

  /** The guard of `update_order_status`: the order exists, is not already
      rejected, and is being rejected. */
  predicate RestoresOnStatus(s: State, oid: OrderId, status: string) {
    oid in s.orders && s.orders[oid].status != Rejected && status == Rejected
  }

  /** `update_order_status`: restore stock when the guard holds, then store
      the new status (any string) on the header if there is one. */
  function UpdateOrderStatus(s: State, oid: OrderId, status: string, fault: Option<string>): (r: Tx<string>)
    ensures r.Committed? <==> fault.None?
    ensures fault.Some? ==> r.message == fault.value
    ensures r.Committed? ==> r.value == "Updated"
    ensures r.Committed? && RestoresOnStatus(s, oid, status) ==> r.state.stock == RestoreStock(s, oid)
    ensures r.Committed? && !RestoresOnStatus(s, oid, status) ==> r.state.stock == s.stock
    ensures r.Committed? && oid in s.orders ==>
      r.state.orders == s.orders[oid := s.orders[oid].(status := status)]
    ensures r.Committed? && oid !in s.orders ==> r.state == s
    ensures r.Committed? ==>
      r.state.items == s.items && r.state.cart == s.cart && r.state.nextOrderId == s.nextOrderId
    ensures Valid(s) && r.Committed? ==> Valid(r.state)
  {
    if fault.Some? then RolledBack(fault.value)
    else
      var stock := if RestoresOnStatus(s, oid, status) then RestoreStock(s, oid) else s.stock;
      var orders := if oid in s.orders then s.orders[oid := s.orders[oid].(status := status)] else s.orders;
      Committed(s.(stock := stock, orders := orders), "Updated")
  }

  /** `delete_order`: restore stock unconditionally, then delete the order's
      items and its header. */
  function DeleteOrder(s: State, oid: OrderId, fault: Option<string>): (r: Tx<string>)
    ensures r.Committed? <==> fault.None?
    ensures fault.Some? ==> r.message == fault.value
    ensures r.Committed? ==> r.value == "Deleted"
    ensures r.Committed? ==> r.state.stock == RestoreStock(s, oid)
    ensures r.Committed? ==> oid !in r.state.orders && r.state.orders == s.orders - {oid}
    ensures r.Committed? ==> forall it :: it in r.state.items <==> it in s.items && it.orderId != oid
    ensures r.Committed? ==> forall it ::
      multiset(r.state.items)[it] == if it.orderId != oid then multiset(s.items)[it] else 0
    ensures r.Committed? ==> r.state.cart == s.cart && r.state.nextOrderId == s.nextOrderId
    ensures Valid(s) && r.Committed? ==> Valid(r.state)
  {
    if fault.Some? then RolledBack(fault.value)
    else
      FilterCounts(s.items, NotBelongsTo(oid));
      Committed(
        s.(stock := RestoreStock(s, oid), items := Filter(s.items, NotBelongsTo(oid)), orders := s.orders - {oid}),
        "Deleted")
  }

  /** `delete_order` with the restoration guarded like the status change:
      an order that is already rejected had its stock credited back, so
      deleting it credits nothing. */
  function DeleteOrderGuarded(s: State, oid: OrderId, fault: Option<string>): (r: Tx<string>)
    ensures r.Committed? <==> fault.None?
    ensures fault.Some? ==> r.message == fault.value
    ensures r.Committed? ==> r.value == "Deleted"
    ensures r.Committed? && oid in s.orders && s.orders[oid].status != Rejected ==>
      r.state.stock == RestoreStock(s, oid)
    ensures r.Committed? && (oid !in s.orders || s.orders[oid].status == Rejected) ==>
      r.state.stock == s.stock
    ensures r.Committed? ==> oid !in r.state.orders && r.state.orders == s.orders - {oid}
    ensures r.Committed? ==> forall it :: it in r.state.items <==> it in s.items && it.orderId != oid
    ensures r.Committed? ==> forall it ::
      multiset(r.state.items)[it] == if it.orderId != oid then multiset(s.items)[it] else 0
    ensures r.Committed? ==> r.state.cart == s.cart && r.state.nextOrderId == s.nextOrderId
    ensures Valid(s) && r.Committed? ==> Valid(r.state)
  {
    if fault.Some? then RolledBack(fault.value)
    else
      var credit := oid in s.orders && s.orders[oid].status != Rejected;
      FilterCounts(s.items, NotBelongsTo(oid));
      Committed(
        s.(stock := if credit then RestoreStock(s, oid) else s.stock,
           items := Filter(s.items, NotBelongsTo(oid)),
           orders := s.orders - {oid}),
        "Deleted")
  }

  /** Items kept by `delete_all_orders`: those whose order is not a header
      of the pool (items without a header survive the subquery). */
  function NotInPool(orders: map<OrderId, Order>, pool: string): OrderItem -> bool {
    (it: OrderItem) => !(it.orderId in orders && orders[it.orderId].pool == pool)
  }

  /** `delete_all_orders`: remove the pool's headers and their items; stock
      is not touched. */
  function DeleteAllOrders(s: State, pool: string, fault: Option<string>): (r: Tx<string>)
    ensures r.Committed? <==> fault.None?
    ensures fault.Some? ==> r.message == fault.value
    ensures r.Committed? ==> r.value == "All orders deleted"
    ensures r.Committed? ==>
      r.state.stock == s.stock && r.state.cart == s.cart && r.state.nextOrderId == s.nextOrderId
    ensures r.Committed? ==> forall o :: o in r.state.orders <==> o in s.orders && s.orders[o].pool != pool
    ensures r.Committed? ==> forall o :: o in r.state.orders ==> r.state.orders[o] == s.orders[o]
    ensures r.Committed? ==> forall it :: it in r.state.items <==>
      it in s.items && !(it.orderId in s.orders && s.orders[it.orderId].pool == pool)
    ensures r.Committed? ==> forall it ::
      multiset(r.state.items)[it] ==
        if !(it.orderId in s.orders && s.orders[it.orderId].pool == pool) then multiset(s.items)[it] else 0
    ensures Valid(s) && r.Committed? ==> Valid(r.state)
  {
    if fault.Some? then RolledBack(fault.value)
    else
      FilterCounts(s.items, NotInPool(s.orders, pool));
      var items := Filter(s.items, NotInPool(s.orders, pool));
      var orders := map o | o in s.orders && s.orders[o].pool != pool :: s.orders[o];
      Committed(s.(items := items, orders := orders), "All orders deleted")
  }

  /** `delete_all_users_history`: remove every header and every item; stock
      is not touched. */
  function DeleteAllUsersHistory(s: State, fault: Option<string>): (r: Tx<string>)
    ensures r.Committed? <==> fault.None?
    ensures fault.Some? ==> r.message == fault.value
    ensures r.Committed? ==> r.value == "All history deleted"
    ensures r.Committed? ==> r.state.orders == map[] && r.state.items == []
    ensures r.Committed? ==>
      r.state.stock == s.stock && r.state.cart == s.cart && r.state.nextOrderId == s.nextOrderId
    ensures Valid(s) && r.Committed? ==> Valid(r.state)
  {
    if fault.Some? then RolledBack(fault.value)
    else Committed(s.(orders := map[], items := []), "All history deleted")
  }

  /** After a status change the guard is open for a later rejection exactly
      when the order exists and the stored status is not "Rejected". */
  lemma GuardAfterUpdate(s: State, oid: OrderId, status: string)
    ensures var a := UpdateOrderStatus(s, oid, status, None).state;
      RestoresOnStatus(a, oid, Rejected) <==> oid in s.orders && status != Rejected
  {
  }

  /** `delete_all_orders` twice for one pool is the same as once: the first
      call leaves no header of the pool, so the subquery keeps every item. */
  lemma DeleteAllOrdersIdempotent(s: State, pool: string)
    ensures var a := DeleteAllOrders(s, pool, None).state;
      DeleteAllOrders(a, pool, None).state == a
  {
    var a := DeleteAllOrders(s, pool, None).state;
    assert forall o :: o in a.orders ==> a.orders[o].pool != pool;
    assert forall it :: NotInPool(a.orders, pool)(it);
    FilterKeepsAll(a.items, NotInPool(a.orders, pool));
    var b := DeleteAllOrders(a, pool, None).state;
    assert b.items == a.items;
    assert b.orders == a.orders;
    assert b.stock == a.stock && b.cart == a.cart && b.nextOrderId == a.nextOrderId;
  }

  // ---------- Lifecycle properties ----------

  /** Creating an order and restoring it straight away gives back the
      ledger, record for record. */
  lemma CreateThenRestoreRoundTrip(s: State, user: UserId, lines: seq<Line>, pool: string)
    requires Valid(s)
    ensures var t := CreateOrder(s, user, lines, pool, None);
      t.Committed? && RestoreStock(t.state, t.value) == s.stock
  {
    var t := CreateOrder(s, user, lines, pool, None);
    var oid := s.nextOrderId;
    var f := ProcessLines(s.stock, pool, oid, lines);
    assert t.state.items == s.items + f.items;
    ItemsOfAppended(s.items, f.items, oid);
    RestoreUndoesLines(s.stock, pool, oid, lines);
  }

  /** Conservation: an order created and then rejected leaves the ledger as
      it was before the order. */
  lemma CreateThenRejectConserves(s: State, user: UserId, lines: seq<Line>, pool: string)
    requires Valid(s)
    ensures var t := CreateOrder(s, user, lines, pool, None);
      t.Committed? &&
      var u := UpdateOrderStatus(t.state, t.value, Rejected, None);
      u.Committed? && u.state.stock == s.stock
  {
    CreateThenRestoreRoundTrip(s, user, lines, pool);
  }

  /** Rejecting twice restores once: the second rejection changes nothing. */
  lemma RejectTwiceRestoresOnce(s: State, oid: OrderId)
    ensures var a := UpdateOrderStatus(s, oid, Rejected, None).state;
      UpdateOrderStatus(a, oid, Rejected, None).state == a
  {
  }

  /** Rejected, then Accepted, then Rejected again: the guard lets the
      second rejection through, so the order's allocation is credited
      twice. */
  lemma RejectAcceptRejectRestoresTwice(s: State, oid: OrderId)
    requires oid in s.orders && s.orders[oid].status != Rejected
    ensures var a := UpdateOrderStatus(s, oid, Rejected, None).state;
      var b := UpdateOrderStatus(a, oid, "Accepted", None).state;
      var c := UpdateOrderStatus(b, oid, Rejected, None).state;
      var its := ItemsOf(s.items, oid);
      var pool := s.orders[oid].pool;
      c.stock == RestoreItems(RestoreItems(s.stock, pool, its), pool, its)
  {
  }

  /** As written: deleting an order that was already rejected credits its
      allocation a second time. */
  lemma RejectThenDeleteCreditsTwice(s: State, oid: OrderId)
    requires oid in s.orders && s.orders[oid].status != Rejected
    ensures var a := UpdateOrderStatus(s, oid, Rejected, None).state;
      var b := DeleteOrder(a, oid, None).state;
      var its := ItemsOf(s.items, oid);
      var pool := s.orders[oid].pool;
      b.stock == RestoreItems(RestoreItems(s.stock, pool, its), pool, its)
  {
  }

  /** As written, create, reject, delete: every part the order took stock of
      ends up with its allocation on top of what it had before the order. */
  lemma CreateRejectDeleteGainsStock(s: State, user: UserId, lines: seq<Line>, pool: string)
    requires Valid(s)
    ensures var t := CreateOrder(s, user, lines, pool, None);
      t.Committed? &&
      var a := UpdateOrderStatus(t.state, t.value, Rejected, None).state;
      var b := DeleteOrder(a, t.value, None).state;
      var added := t.state.items[|s.items|..];
      forall p :: Available(b.stock, pool, p) ==
        Available(s.stock, pool, p) + (if Lookup(s.stock, pool, p).Some? then Deducted(added, p) else 0)
  {
    var t := CreateOrder(s, user, lines, pool, None);
    CreateThenRestoreRoundTrip(s, user, lines, pool);
    var oid := s.nextOrderId;
    var f := ProcessLines(s.stock, pool, oid, lines);
    assert t.state.items == s.items + f.items;
    ItemsOfAppended(s.items, f.items, oid);
    var a := UpdateOrderStatus(t.state, t.value, Rejected, None).state;
    assert a.stock == s.stock;
    RestoreCreditsDeducted(s.stock, pool, f.items);
  }

  /** With the guarded delete, create, reject, delete leaves the ledger as it
      was before the order. */
  lemma CreateRejectDeleteGuardedConserves(s: State, user: UserId, lines: seq<Line>, pool: string)
    requires Valid(s)
    ensures var t := CreateOrder(s, user, lines, pool, None);
      t.Committed? &&
      var a := UpdateOrderStatus(t.state, t.value, Rejected, None).state;
      DeleteOrderGuarded(a, t.value, None).state.stock == s.stock
  {
    CreateThenRestoreRoundTrip(s, user, lines, pool);
  }

  /** With the guarded delete, create then delete also leaves the ledger as
      it was: deleting a live order still returns its stock. */
  lemma CreateDeleteGuardedConserves(s: State, user: UserId, lines: seq<Line>, pool: string)
    requires Valid(s)
    ensures var t := CreateOrder(s, user, lines, pool, None);
      t.Committed? && DeleteOrderGuarded(t.state, t.value, None).state.stock == s.stock
  {
    CreateThenRestoreRoundTrip(s, user, lines, pool);
  }

  /** A concrete run of the double credit: ten units of part "A" on hand,
      an order for fifteen takes all ten, the rejection puts them back, and
      the delete puts them back a second time. */
  const ExamplePool: string := "parts_stock"
  const ExampleStart: State := State([StockRecord("A", "Part A", 10, 5.0, ExamplePool, true)], map[], [], [], 0)
  const ExampleLines: seq<Line> := [Line("A", "Part A", 15, 5.0)]

  /** The order for fifteen is capped at the ten on hand. */
  lemma ExampleAllocation()
    ensures ProcessLines(ExampleStart.stock, ExamplePool, 0, ExampleLines) ==
      Fold([StockRecord("A", "Part A", 0, 5.0, ExamplePool, true)], [OrderItem(0, "A", "Part A", 10, 15, 10, 5.0)], 50.0)
  {
    var st := ExampleStart.stock;
    assert Matches(st[0], ExamplePool, "A");
    assert Available(st, ExamplePool, "A") == 10;
    assert ExampleLines[..0] == [];
  }

  /** Create, reject, delete as written: 10 on hand, 0 after the order, 10
      after the rejection, 20 after the delete. */
  lemma DoubleCreditExample()
    ensures var t := CreateOrder(ExampleStart, 1, ExampleLines, ExamplePool, None);
      && t.Committed?
      && t.state.stock == [StockRecord("A", "Part A", 0, 5.0, ExamplePool, true)]
      && var a := UpdateOrderStatus(t.state, t.value, Rejected, None).state;
      && a.stock == ExampleStart.stock
      && DeleteOrder(a, t.value, None).state.stock == [StockRecord("A", "Part A", 20, 5.0, ExamplePool, true)]
  {
    var s := ExampleStart;
    ExampleAllocation();
    var t := CreateOrder(s, 1, ExampleLines, ExamplePool, None);
    var items := [OrderItem(0, "A", "Part A", 10, 15, 10, 5.0)];
    assert t.state.items == items;
    CreateThenRejectConserves(s, 1, ExampleLines, ExamplePool);
    var a := UpdateOrderStatus(t.state, t.value, Rejected, None).state;
    assert a.items == items && a.orders[0].pool == ExamplePool;
    assert ItemsOf(a.items, 0) == items;
    assert items[..0] == [];
    assert Matches(s.stock[0], ExamplePool, "A");
  }
}

=== FILE: order_entry.dfy ===
/** Order creation (`create_order`): allocate each submitted line against the
    live stock of the order's pool, in submission order, deduct what was
    allocated, record a line item per line, total the allocated value and
    clear the user's cart, all in one unit of work. */
module OrderEntry {
  import opened Common
  import opened Ledger
  import opened Cart
  import opened Store
  import Text

  /** A submitted line: what the cart or the bulk enquiry hands over. */
  datatype Line = Line(part: string, description: string, qty: int, price: real)

  /** The running state of the loop over the lines. */
  datatype Fold = Fold(stock: Stock, items: seq<OrderItem>, total: real)

  /** The error a second header with an id already in use raises. */
  const DuplicateOrderId: string := "duplicate key value violates unique constraint on orders.order_id"

  /** One pass of the loop body: read the live stock (a missing record reads
      as 0), allocate `min(requested, stock)`, deduct it only when positive,
      and build the line item with the pre-deduction snapshot. */
  function AllocateLine(stock: Stock, pool: string, oid: OrderId, line: Line): (r: (Stock, OrderItem))
    ensures r.1.orderId == oid && r.1.part == line.part && r.1.description == line.description
    ensures r.1.requested == line.qty && r.1.price == line.price
    ensures r.1.available == Available(stock, pool, line.part)
    ensures r.1.qty == Min(line.qty, r.1.available)
    ensures SameShape(stock, r.0)
    ensures forall i :: 0 <= i < |stock| && stock[i].pool != pool ==> r.0[i] == stock[i]
  {
    var current := Available(stock, pool, line.part);
    var alloc := Min(line.qty, current);
    var stock' := if alloc > 0 then Adjust(stock, pool, line.part, -alloc) else stock;
    (stock', OrderItem(oid, line.part, line.description, alloc, line.qty, current, line.price))
  }

  /** One line takes exactly its positive allocation out of its part's
      stock in the pool, and leaves every other part of the pool alone. */
  lemma AllocateLineMovesStock(stock: Stock, pool: string, oid: OrderId, line: Line)
    ensures var r := AllocateLine(stock, pool, oid, line);
      Available(r.0, pool, line.part) ==
        Available(stock, pool, line.part) - (if r.1.qty > 0 then r.1.qty else 0)
    ensures var r := AllocateLine(stock, pool, oid, line);
      forall p :: p != line.part ==> Available(r.0, pool, p) == Available(stock, pool, p)
  {
    var alloc := Min(line.qty, Available(stock, pool, line.part));
    AdjustAvailable(stock, pool, line.part, -alloc);
  }

  /** A line's whole effect on the ledger is one adjustment of its part by
      the negated allocation, made only when the allocation is positive. */
  lemma AllocateLineIsAdjust(stock: Stock, pool: string, oid: OrderId, line: Line)
    ensures var r := AllocateLine(stock, pool, oid, line);
      r.0 == if r.1.qty > 0 then Adjust(stock, pool, r.1.part, -r.1.qty) else stock
  {
  }

  /** The loop of `create_order` over the lines, in submission order, each
      line seeing the stock left by the lines before it. */
  function ProcessLines(stock: Stock, pool: string, oid: OrderId, lines: seq<Line>): (r: Fold)
    ensures |r.items| == |lines|
    decreases |lines|
  {
    if |lines| == 0 then Fold(stock, [], 0.0)
    else
      var f := ProcessLines(stock, pool, oid, lines[..|lines| - 1]);
      var step := AllocateLine(f.stock, pool, oid, lines[|lines| - 1]);
      Fold(step.0, f.items + [step.1], f.total + LineValue(step.1))
  }

  /** One more line is one more pass of the loop body. */
  lemma ProcessLinesLast(stock: Stock, pool: string, oid: OrderId, lines: seq<Line>)
    requires |lines| > 0
    ensures var f := ProcessLines(stock, pool, oid, lines[..|lines| - 1]);
      var step := AllocateLine(f.stock, pool, oid, lines[|lines| - 1]);
      && ProcessLines(stock, pool, oid, lines).stock == step.0
      && ProcessLines(stock, pool, oid, lines).items == f.items + [step.1]
  {
  }

  /** What the loop records: one item per line, in submission order, each
      allocated `min(requested, snapshot)`. */
  lemma {:induction false} ProcessLinesItems(stock: Stock, pool: string, oid: OrderId, lines: seq<Line>)
    ensures var r := ProcessLines(stock, pool, oid, lines);
      forall i :: 0 <= i < |lines| ==>
        && r.items[i].orderId == oid
        && r.items[i].part == lines[i].part
        && r.items[i].description == lines[i].description
        && r.items[i].requested == lines[i].qty
        && r.items[i].price == lines[i].price
        && r.items[i].qty == Min(r.items[i].requested, r.items[i].available)
    decreases |lines|
  {
    if |lines| > 0 {
      var prefix := lines[..|lines| - 1];
      ProcessLinesItems(stock, pool, oid, prefix);
      var f := ProcessLines(stock, pool, oid, prefix);
      var step := AllocateLine(f.stock, pool, oid, lines[|lines| - 1]);
      var r := ProcessLines(stock, pool, oid, lines);
      assert r.items == f.items + [step.1];
      forall i | 0 <= i < |prefix|
        ensures r.items[i] == f.items[i] && lines[i] == prefix[i]
      {
      }
    }
  }

  /** The running total of the loop is the value of the items it records. */
  lemma {:induction false} ProcessLinesTotal(stock: Stock, pool: string, oid: OrderId, lines: seq<Line>)
    ensures var r := ProcessLines(stock, pool, oid, lines);
      r.total == ItemsValue(r.items)
    decreases |lines|
  {
    if |lines| > 0 {
      var prefix := lines[..|lines| - 1];
      ProcessLinesTotal(stock, pool, oid, prefix);
      var f := ProcessLines(stock, pool, oid, prefix);
      var step := AllocateLine(f.stock, pool, oid, lines[|lines| - 1]);
      var items := f.items + [step.1];
      assert ProcessLines(stock, pool, oid, lines).items == items;
      assert ProcessLines(stock, pool, oid, lines).total == f.total + LineValue(step.1);
      assert items[..|items| - 1] == f.items;
      assert ItemsValue(items) == ItemsValue(f.items) + LineValue(step.1);
    }
  }

  /** The loop keeps the ledger's shape and leaves other pools alone. */
  lemma {:induction false} ProcessLinesIsolation(stock: Stock, pool: string, oid: OrderId, lines: seq<Line>)
    ensures var r := ProcessLines(stock, pool, oid, lines);
      && SameShape(stock, r.stock)
      && forall i :: 0 <= i < |stock| && stock[i].pool != pool ==> r.stock[i] == stock[i]
    decreases |lines|
  {
    if |lines| > 0 {
      ProcessLinesIsolation(stock, pool, oid, lines[..|lines| - 1]);
    }
  }

  /** What an order records for its lines against the ledger it started
      from: one item per line in submission order carrying the line's
      fields, each snapshot the part's initial stock less what the earlier
      lines took, and each allocation `min(requested, snapshot)`. */
  predicate RecordsLines(items: seq<OrderItem>, oid: OrderId, lines: seq<Line>, stock: Stock, pool: string) {
    && |items| == |lines|
    && forall i :: 0 <= i < |lines| ==>
      && items[i].orderId == oid && items[i].part == lines[i].part
      && items[i].description == lines[i].description
      && items[i].requested == lines[i].qty && items[i].price == lines[i].price
      && items[i].available == Available(stock, pool, lines[i].part) - Deducted(items[..i], lines[i].part)
      && items[i].qty == Min(lines[i].qty, items[i].available)
  }

  /** The loop records its lines as described by `RecordsLines`. */
  lemma ProcessLinesRecordsLines(stock: Stock, pool: string, oid: OrderId, lines: seq<Line>)
    ensures RecordsLines(ProcessLines(stock, pool, oid, lines).items, oid, lines, stock, pool)
  {
    ProcessLinesItems(stock, pool, oid, lines);
    ProcessLinesSnapshots(stock, pool, oid, lines);
  }

  /** `create_order`. `fault` is the error the database raised during the
      unit of work, if any; the header insert also fails when the next
      order id is already taken. On failure nothing is applied. */
  function CreateOrder(s: State, user: UserId, lines: seq<Line>, pool: string, fault: Option<string>): (r: Tx<OrderId>)
    ensures fault.Some? ==> r == RolledBack(fault.value)
    ensures r.Committed? <==> fault.None? && s.nextOrderId !in s.orders
    ensures Valid(s) && fault.None? ==> r.Committed?
    ensures r.Committed? ==> |r.state.items| == |s.items| + |lines|
    ensures r.Committed? ==>
      var t := r.state;
      var added := t.items[|s.items|..];
      && r.value == s.nextOrderId
      && t.items[..|s.items|] == s.items
      && RecordsLines(added, r.value, lines, s.stock, pool)
      && t.orders == s.orders[r.value := Order(user, pool, ItemsValue(added), Pending)]
      && (forall p :: Available(t.stock, pool, p) + Deducted(added, p) == Available(s.stock, pool, p))
      && SameShape(s.stock, t.stock)
      && (forall i :: 0 <= i < |s.stock| && s.stock[i].pool != pool ==> t.stock[i] == s.stock[i])
      && (forall row :: row in t.cart <==> row in s.cart && row.user != user)
      && (forall row :: multiset(t.cart)[row] == if row.user != user then multiset(s.cart)[row] else 0)
      && t.nextOrderId == r.value + 1
    ensures Valid(s) && r.Committed? ==> Valid(r.state)
  {
    if fault.Some? then RolledBack(fault.value)
    else if s.nextOrderId in s.orders then RolledBack(DuplicateOrderId)
    else
      var oid := s.nextOrderId;
      var f := ProcessLines(s.stock, pool, oid, lines);
      ProcessLinesTotal(s.stock, pool, oid, lines);
      ProcessLinesIsolation(s.stock, pool, oid, lines);
      LinesConserveStock(s.stock, pool, oid, lines);
      ProcessLinesRecordsLines(s.stock, pool, oid, lines);
      var items := s.items + f.items;
      assert items[|s.items|..] == f.items;
      assert items[..|s.items|] == s.items;
      Committed(
        State(f.stock, s.orders[oid := Order(user, pool, f.total, Pending)], items, ClearCart(s.cart, user), oid + 1),
        oid)
  }

  /** Stock conservation over one order: for every part of the pool, the
      stock left plus what the lines deducted is the stock before. */
  lemma {:induction false} LinesConserveStock(stock: Stock, pool: string, oid: OrderId, lines: seq<Line>)
    ensures var r := ProcessLines(stock, pool, oid, lines);
      forall p :: Available(r.stock, pool, p) + Deducted(r.items, p) == Available(stock, pool, p)
    decreases |lines|
  {
    if |lines| > 0 {
      LinesConserveStock(stock, pool, oid, lines[..|lines| - 1]);
      var f := ProcessLines(stock, pool, oid, lines[..|lines| - 1]);
      var step := AllocateLine(f.stock, pool, oid, lines[|lines| - 1]);
      AllocateLineMovesStock(f.stock, pool, oid, lines[|lines| - 1]);
      var items := f.items + [step.1];
      assert items[..|items| - 1] == f.items;
    }
  }

  /** The fold over a prefix of the lines produces a prefix of the items. */
  lemma {:induction false} ProcessLinesPrefix(stock: Stock, pool: string, oid: OrderId, lines: seq<Line>, i: int)
    requires 0 <= i <= |lines|
    ensures ProcessLines(stock, pool, oid, lines[..i]).items == ProcessLines(stock, pool, oid, lines).items[..i]
    decreases |lines|
  {
    var n := |lines|;
    if i < n {
      var f := ProcessLines(stock, pool, oid, lines[..n - 1]);
      var r := ProcessLines(stock, pool, oid, lines);
      assert r.items[..n - 1] == f.items;
      ProcessLinesPrefix(stock, pool, oid, lines[..n - 1], i);
      assert lines[..n - 1][..i] == lines[..i];
      assert r.items[..i] == f.items[..i];
    } else {
      assert lines[..i] == lines;
    }
  }

  /** Line `i` of the fold is the loop body applied to the stock the first
      `i` lines left behind. */
  lemma {:induction false} ProcessLinesStep(stock: Stock, pool: string, oid: OrderId, lines: seq<Line>, i: int)
    requires 0 <= i < |lines|
    ensures ProcessLines(stock, pool, oid, lines).items[i] ==
      AllocateLine(ProcessLines(stock, pool, oid, lines[..i]).stock, pool, oid, lines[i]).1
    decreases |lines|
  {
    var n := |lines|;
    var prefix := lines[..n - 1];
    ProcessLinesLast(stock, pool, oid, lines);
    if i < n - 1 {
      ProcessLinesStep(stock, pool, oid, prefix, i);
      assert prefix[..i] == lines[..i];
      assert prefix[i] == lines[i];
    } else {
      assert prefix == lines[..i];
    }
  }

  /** Submission order decides priority on scarce stock: each line's
      snapshot is the initial stock of its part minus what the earlier
      lines of the same order already took. */
  lemma SnapshotSeesEarlierLines(stock: Stock, pool: string, oid: OrderId, lines: seq<Line>, i: int)
    requires 0 <= i < |lines|
    ensures var items := ProcessLines(stock, pool, oid, lines).items;
      items[i].available == Available(stock, pool, lines[i].part) - Deducted(items[..i], lines[i].part)
  {
    ProcessLinesPrefix(stock, pool, oid, lines, i);
    ProcessLinesStep(stock, pool, oid, lines, i);
    LinesConserveStock(stock, pool, oid, lines[..i]);
  }

  /** Every line's snapshot at once: the initial stock of its part less
      what the earlier lines took. */
  lemma ProcessLinesSnapshots(stock: Stock, pool: string, oid: OrderId, lines: seq<Line>)
    ensures var items := ProcessLines(stock, pool, oid, lines).items;
      forall i :: 0 <= i < |lines| ==>
        items[i].available == Available(stock, pool, lines[i].part) - Deducted(items[..i], lines[i].part)
  {
    forall i | 0 <= i < |lines|
      ensures ProcessLines(stock, pool, oid, lines).items[i].available ==
        Available(stock, pool, lines[i].part) - Deducted(ProcessLines(stock, pool, oid, lines).items[..i], lines[i].part)
    {
      SnapshotSeesEarlierLines(stock, pool, oid, lines, i);
    }
  }

  /** Starting from a non-negative observed stock, the observed stock stays
      non-negative and the lines of one order together never take more of
      a part than it had. */
  lemma {:induction false} OrderNeverOverAllocates(stock: Stock, pool: string, oid: OrderId, lines: seq<Line>, p: string)
    requires Available(stock, pool, p) >= 0
    ensures Available(ProcessLines(stock, pool, oid, lines).stock, pool, p) >= 0
    ensures Deducted(ProcessLines(stock, pool, oid, lines).items, p) <= Available(stock, pool, p)
    decreases |lines|
  {
    LinesConserveStock(stock, pool, oid, lines);
    if |lines| > 0 {
      OrderNeverOverAllocates(stock, pool, oid, lines[..|lines| - 1], p);
      LinesConserveStock(stock, pool, oid, lines[..|lines| - 1]);
    }
  }

  /** One line keeps every record non-negative when each (pool, part) key
      has a single record. */
  lemma AllocateLineKeepsRecordsNonNegative(stock: Stock, pool: string, oid: OrderId, line: Line)
    requires UniqueKeys(stock) && NonNegative(stock)
    ensures NonNegative(AllocateLine(stock, pool, oid, line).0)
    ensures UniqueKeys(AllocateLine(stock, pool, oid, line).0)
  {
    var r := AllocateLine(stock, pool, oid, line);
    forall i | 0 <= i < |stock| && Matches(stock[i], pool, line.part)
      ensures r.0[i].freeStock >= 0
    {
      LookupUnique(stock, i);
    }
    assert forall i :: 0 <= i < |stock| ==> Identity(stock[i]) == Identity(r.0[i]);
  }

  /** With a single record per (pool, part) key, no record of the ledger is
      driven below zero by an order. */
  lemma {:induction false} OrderKeepsRecordsNonNegative(stock: Stock, pool: string, oid: OrderId, lines: seq<Line>)
    requires UniqueKeys(stock) && NonNegative(stock)
    ensures NonNegative(ProcessLines(stock, pool, oid, lines).stock)
    ensures UniqueKeys(ProcessLines(stock, pool, oid, lines).stock)
    decreases |lines|
  {
    if |lines| > 0 {
      OrderKeepsRecordsNonNegative(stock, pool, oid, lines[..|lines| - 1]);
      var f := ProcessLines(stock, pool, oid, lines[..|lines| - 1]);
      AllocateLineKeepsRecordsNonNegative(f.stock, pool, oid, lines[|lines| - 1]);
    }
  }

  // ---------- Re-uploads and the order path ----------

  /** As written, `UniqueKeys` does not survive a re-upload: the old record
      stays as inactive history next to the new one. The order path reads
      the first record of the key, the inactive 10, allocates 10, and
      deducts from both records, so the live record drops to -8 although
      every record started non-negative and no other order ran. */
  lemma ReuploadThenOrderGoesNegative()
    ensures var before := [StockRecord("A", "", 10, 1.0, "P", true)];
      var stock := ReplacePool(before, "P", [NewPart("A", "", 2, 1.0)]);
      var r := AllocateLine(stock, "P", 1, Line("A", "", 10, 1.0));
      && UniqueKeys(before) && NonNegative(stock) && !UniqueKeys(stock)
      && r.1.available == 10 && r.1.qty == 10
      && r.0[1].active && r.0[1].freeStock == -8
  {
    Text.StripOfStripped("A");
    var before := [StockRecord("A", "", 10, 1.0, "P", true)];
    var stock := ReplacePool(before, "P", [NewPart("A", "", 2, 1.0)]);
    assert stock == [StockRecord("A", "", 10, 1.0, "P", false), StockRecord("A", "", 2, 1.0, "P", true)];
    assert Matches(stock[1], stock[0].pool, stock[0].part);
    assert FindRecord(stock, "P", "A", false) == Some(stock[0]);
  }

  /** The loop body as evidently intended: read the key's live (active)
      record, as the bulk enquiry and the cart view do, and deduct from it
      alone. The inactive history keeps its quantities. */
  function AllocateLineLive(stock: Stock, pool: string, oid: OrderId, line: Line): (r: (Stock, OrderItem))
    ensures r.1.orderId == oid && r.1.part == line.part && r.1.description == line.description
    ensures r.1.requested == line.qty && r.1.price == line.price
    ensures r.1.available == LiveAvailable(stock, pool, line.part)
    ensures r.1.qty == Min(line.qty, r.1.available)
    ensures SameShape(stock, r.0)
    ensures forall i :: 0 <= i < |stock| && !(stock[i].active && stock[i].pool == pool) ==> r.0[i] == stock[i]
    ensures forall i :: 0 <= i < |stock| && !(stock[i].active && Matches(stock[i], pool, line.part)) ==>
      r.0[i] == stock[i]
    ensures forall i :: 0 <= i < |stock| && stock[i].active && Matches(stock[i], pool, line.part) ==>
      r.0[i].freeStock == stock[i].freeStock - (if r.1.qty > 0 then r.1.qty else 0)
  {
    var current := LiveAvailable(stock, pool, line.part);
    var alloc := Min(line.qty, current);
    var stock' := if alloc > 0 then AdjustLive(stock, pool, line.part, -alloc) else stock;
    (stock', OrderItem(oid, line.part, line.description, alloc, line.qty, current, line.price))
  }

  /** The order loop over the corrected body: only quantities of the pool's
      live records move; the inactive history and other pools stay as
      they were. */
  function ProcessLinesLive(stock: Stock, pool: string, oid: OrderId, lines: seq<Line>): (r: Fold)
    ensures |r.items| == |lines|
    ensures SameShape(stock, r.stock)
    ensures forall i :: 0 <= i < |stock| && !(stock[i].active && stock[i].pool == pool) ==> r.stock[i] == stock[i]
    decreases |lines|
  {
    if |lines| == 0 then Fold(stock, [], 0.0)
    else
      var f := ProcessLinesLive(stock, pool, oid, lines[..|lines| - 1]);
      var step := AllocateLineLive(f.stock, pool, oid, lines[|lines| - 1]);
      assert forall i :: 0 <= i < |stock| ==> Identity(stock[i]) == Identity(step.0[i]) by {
        assert forall i :: 0 <= i < |stock| ==> Identity(stock[i]) == Identity(f.stock[i]);
        assert forall i :: 0 <= i < |stock| ==> Identity(f.stock[i]) == Identity(step.0[i]);
      }
      assert forall i :: 0 <= i < |stock| && !(stock[i].active && stock[i].pool == pool) ==>
        !(f.stock[i].active && f.stock[i].pool == pool);
      Fold(step.0, f.items + [step.1], f.total + LineValue(step.1))
  }

  /** With one active record per key, the corrected body keeps every record
      non-negative, and keeps one active record per key. */
  lemma AllocateLineLiveKeepsRecordsNonNegative(stock: Stock, pool: string, oid: OrderId, line: Line)
    requires UniqueActiveKeys(stock) && NonNegative(stock)
    ensures NonNegative(AllocateLineLive(stock, pool, oid, line).0)
    ensures UniqueActiveKeys(AllocateLineLive(stock, pool, oid, line).0)
  {
    var r := AllocateLineLive(stock, pool, oid, line);
    forall i | 0 <= i < |stock| && stock[i].active && Matches(stock[i], pool, line.part)
      ensures r.0[i].freeStock >= 0
    {
      LiveAvailableUnique(stock, i);
    }
    assert forall i :: 0 <= i < |stock| ==> Identity(stock[i]) == Identity(r.0[i]);
  }

  /** The corrected order loop never drives a record below zero, however
      many re-uploads came before, as long as each upload named each part
      once (`Ledger.ReplaceKeepsUniqueActiveKeys`). */
  lemma {:induction false} OrderLiveKeepsRecordsNonNegative(stock: Stock, pool: string, oid: OrderId, lines: seq<Line>)
    requires UniqueActiveKeys(stock) && NonNegative(stock)
    ensures NonNegative(ProcessLinesLive(stock, pool, oid, lines).stock)
    ensures UniqueActiveKeys(ProcessLinesLive(stock, pool, oid, lines).stock)
    decreases |lines|
  {
    if |lines| > 0 {
      OrderLiveKeepsRecordsNonNegative(stock, pool, oid, lines[..|lines| - 1]);
      var f := ProcessLinesLive(stock, pool, oid, lines[..|lines| - 1]);
      AllocateLineLiveKeepsRecordsNonNegative(f.stock, pool, oid, lines[|lines| - 1]);
    }
  }

  /** The scenario of `ReuploadThenOrderGoesNegative` on the corrected
      body: the live record's 2 are allocated, it ends at 0, and the
      history keeps its 10. */
  lemma ReuploadThenLiveOrderStaysNonNegative()
    ensures var before := [StockRecord("A", "", 10, 1.0, "P", true)];
      var stock := ReplacePool(before, "P", [NewPart("A", "", 2, 1.0)]);
      var r := AllocateLineLive(stock, "P", 1, Line("A", "", 10, 1.0));
      && UniqueActiveKeys(stock)
      && r.1.available == 2 && r.1.qty == 2
      && r.0[1].active && r.0[1].freeStock == 0 && r.0[0].freeStock == 10
  {
    Text.StripOfStripped("A");
    var before := [StockRecord("A", "", 10, 1.0, "P", true)];
    var stock := ReplacePool(before, "P", [NewPart("A", "", 2, 1.0)]);
    assert stock == [StockRecord("A", "", 10, 1.0, "P", false), StockRecord("A", "", 2, 1.0, "P", true)];
    assert FindRecord(stock[1..], "P", "A", true) == Some(stock[1]);
  }
}

=== FILE: store.dfy ===
/** The persistent state the engine works on: the stock ledger, the order
    headers, the order line items and the cart, plus the result of one
    `engine.begin()` unit of work. */
module Store {
  import opened Common
  import opened Ledger
  import opened Cart

  type OrderId = nat

  /** The status a new order gets from the `orders` table's column default;
      the INSERT at logic.py:238 does not set it. */
  const Pending: string := "Pending"
  const Rejected: string := "Rejected"

  /** An order header. The status is free text: the admin surface sends
      "Accepted" or "Rejected", and any string is stored. */
  datatype Order = Order(user: UserId, pool: string, total: real, status: string)

  /** An order line: `qty` is the allocated quantity, `requested` what the
      user asked for, `available` the stock observed before deduction. */
  datatype OrderItem = OrderItem(
    orderId: OrderId,
    part: string,
    description: string,
    qty: int,
    requested: int,
    available: int,
    price: real)

  datatype State = State(
    stock: Stock,
    orders: map<OrderId, Order>,
    items: seq<OrderItem>,
    cart: seq<CartRow>,
    nextOrderId: OrderId)

  /** The outcome of one unit of work: its changes committed together with
      the value the operation returns, or rolled back with the error text. */
  datatype Tx<T> = Committed(state: State, value: T) | RolledBack(message: string)

  /** Every order id in use, on a header or on a line item, was handed out
      by the id sequence already. */
  predicate Valid(s: State) {
    && (forall o :: o in s.orders ==> o < s.nextOrderId)
    && (forall i :: 0 <= i < |s.items| ==> s.items[i].orderId < s.nextOrderId)
  }

  function BelongsTo(oid: OrderId): OrderItem -> bool {
    (it: OrderItem) => it.orderId == oid
  }

  function NotBelongsTo(oid: OrderId): OrderItem -> bool {
    (it: OrderItem) => it.orderId != oid
  }

  /** `SELECT ... FROM order_items WHERE order_id = oid`, in table order. */
  function ItemsOf(items: seq<OrderItem>, oid: OrderId): seq<OrderItem> {
    Filter(items, BelongsTo(oid))
  }

  /** Quantity of `part` the lines took out of stock: the positive
      allocations only. */
  function Deducted(items: seq<OrderItem>, part: string): nat
    decreases |items|
  {
    if |items| == 0 then 0
    else
      var last := items[|items| - 1];
      Deducted(items[..|items| - 1], part) + (if last.part == part && last.qty > 0 then last.qty else 0)
  }

  /** Allocated quantity times unit price. */
  function LineValue(it: OrderItem): real {
    (it.qty as real) * it.price
  }

  /** Sum of allocated quantity times unit price over the lines. */
  function ItemsValue(items: seq<OrderItem>): real
    decreases |items|
  {
    if |items| == 0 then 0.0
    else ItemsValue(items[..|items| - 1]) + LineValue(items[|items| - 1])
  }

  /** The lines of a freshly numbered order are exactly the ones appended
      for it. */
  lemma ItemsOfAppended(old_: seq<OrderItem>, new_: seq<OrderItem>, oid: OrderId)
    requires forall i :: 0 <= i < |old_| ==> old_[i].orderId != oid
    requires forall i :: 0 <= i < |new_| ==> new_[i].orderId == oid
    ensures ItemsOf(old_ + new_, oid) == new_
  {
    FilterConcat(old_, new_, BelongsTo(oid));
    FilterDropsAll(old_, BelongsTo(oid));
    FilterKeepsAll(new_, BelongsTo(oid));
  }
}

=== FILE: text.dfy ===
/** Part-number clean-up: Python's `str.strip()` and the hyphen removal the
    search box and the bulk enquiry apply before matching part numbers. */
module Text {
  import opened Common

  /** The characters Python's `str.isspace()` accepts in the Latin-1 range. */
  predicate IsSpace(c: char) {
    var n := c as int;
    (9 <= n <= 13) || (28 <= n <= 32) || n == 0x85 || n == 0xA0
  }

  /** The index of the first character of `s` at or after `i` that is not
      whitespace, or `|s|` when there is none. */
  function SkipSpaces(s: string, i: nat): (k: nat)
    requires i <= |s|
    ensures i <= k <= |s|
    ensures forall j :: i <= j < k ==> IsSpace(s[j])
    ensures k < |s| ==> !IsSpace(s[k])
    decreases |s| - i
  {
    if i < |s| && IsSpace(s[i]) then SkipSpaces(s, i + 1) else i
  }

  /** The end of the text in `s[lo..j]`: the smallest `k` such that
      everything from `k` up to `j` is whitespace. */
  function BackOverSpaces(s: string, lo: nat, j: nat): (k: nat)
    requires lo <= j <= |s|
    ensures lo <= k <= j
    ensures forall m :: k <= m < j ==> IsSpace(s[m])
    ensures k > lo ==> !IsSpace(s[k - 1])
    decreases j - lo
  {
    if j > lo && IsSpace(s[j - 1]) then BackOverSpaces(s, lo, j - 1) else j
  }

  /** Number of leading whitespace characters of `s`. */
  function LeadingSpaces(s: string): nat
    ensures LeadingSpaces(s) <= |s|
  {
    SkipSpaces(s, 0)
  }

  /** `r` is what Python's `s.strip()` returns: the slice of `s` that
      starts after its leading whitespace, does not begin or end with
      whitespace, and leaves only whitespace after it. */
  predicate IsStripped(s: string, r: string) {
    && LeadingSpaces(s) + |r| <= |s|
    && r == s[LeadingSpaces(s)..LeadingSpaces(s) + |r|]
    && (|r| > 0 ==> !IsSpace(r[0]) && !IsSpace(r[|r| - 1]))
    && (forall k :: 0 <= k < LeadingSpaces(s) ==> IsSpace(s[k]))
    && (forall k :: LeadingSpaces(s) + |r| <= k < |s| ==> IsSpace(s[k]))
  }

  /** The description pins the result down: at most one string is the
      stripped form of `s`. */
  lemma StrippedUnique(s: string, r1: string, r2: string)
    requires IsStripped(s, r1) && IsStripped(s, r2)
    ensures r1 == r2
  {
  }

  /** Python's `s.strip()`. */
  function Strip(s: string): (r: string)
    ensures IsStripped(s, r)
  {
    var lo := LeadingSpaces(s);
    var hi := BackOverSpaces(s, lo, |s|);
    assert hi > lo ==> !IsSpace(s[lo]);
    s[lo..hi]
  }

  /** A string without surrounding whitespace is left alone by `Strip`. */
  lemma StripOfStripped(s: string)
    requires |s| > 0 ==> !IsSpace(s[0]) && !IsSpace(s[|s| - 1])
    ensures Strip(s) == s
  {
    assert LeadingSpaces(s) == 0;
    assert BackOverSpaces(s, 0, |s|) == |s|;
    assert s[0..|s|] == s;
  }

  lemma StripIdempotent(s: string)
    ensures Strip(Strip(s)) == Strip(s)
  {
    StripOfStripped(Strip(s));
  }

  predicate NotHyphen(c: char) {
    c != '-'
  }

  /** Python's `s.replace("-", "")`: every character other than `-` is
      kept, as often as it occurs, and every `-` goes. */
  function RemoveHyphens(s: string): (r: string)
    ensures '-' !in r
    ensures multiset(r) == multiset(s)['-' := 0]
  {
    FilterCounts(s, NotHyphen);
    Filter(s, NotHyphen)
  }

  /** Hyphens are removed piecewise, so the kept characters stay in their
      order. */
  lemma RemoveHyphensConcat(a: string, b: string)
    ensures RemoveHyphens(a + b) == RemoveHyphens(a) + RemoveHyphens(b)
  {
    FilterConcat(a, b, NotHyphen);
  }

  /** Removing hyphens introduces no character. */
  lemma RemoveHyphensKeepsChars(s: string)
    ensures forall c :: c in RemoveHyphens(s) ==> c in s
  {
    forall c | c in RemoveHyphens(s)
      ensures c in s
    {
      assert multiset(RemoveHyphens(s))[c] > 0;
    }
  }

  /** A string without hyphens is left as it is. */
  lemma RemoveHyphensOfClean(s: string)
    requires '-' !in s
    ensures RemoveHyphens(s) == s
  {
    assert forall i :: 0 <= i < |s| ==> s[i] in s;
    FilterKeepsAll(s, NotHyphen);
  }

  /** The part-number normalisation of the search box and the bulk
      enquiry: drop every hyphen, then strip surrounding whitespace. */
  function NormalizePartNumber(s: string): (r: string)
    ensures '-' !in r
    ensures forall c :: c in r ==> c in s
    ensures IsStripped(RemoveHyphens(s), r)
  {
    var h := RemoveHyphens(s);
    var r := Strip(h);
    RemoveHyphensKeepsChars(s);
    assert forall c :: c in r ==> c in h;
    r
  }

  /** Normalising an already normalised part number changes nothing, so the
      bulk merge and the search agree on what counts as the same part. */
  lemma {:induction false} NormalizeIdempotent(s: string)
    ensures NormalizePartNumber(NormalizePartNumber(s)) == NormalizePartNumber(s)
  {
    var n := NormalizePartNumber(s);
    RemoveHyphensOfClean(n);
    StripOfStripped(n);
  }
}
